=== FILE: README.md ===
# PreBuild configuration engine in Dafny

PreBuild is a command-line tool that prepares an Xcode build. It reads one or more JSON configuration files, layers them, and then drives a set of build steps from the result. This project models the configuration engine at the heart of `PreBuilder` (PreBuild/PreBuilder.swift) together with the string helpers it relies on (PreBuild/String-Extensions.swift). Each part is stated over an immutable JSON-like value:

- `Values.Value` is `Null | Bool | Int | Str | Array | Dict`.
- `Dictionary` is `map<string, Value>`.

The engine consists of:

- **Keypath read** (`KeyPath`). This is `valueForKeyPathFromDict`. A path is split on `.`; a segment `k:i` names element `i` of the array stored under `k`. A literal key is tried before the indexed reading of a segment. `KeyPathReference` gives an independent segment-by-segment definition.
- **Keypath write** (`KeyPathWrite`). This is `setValueForKeyPath`. It rebuilds a copy along the path. It returns `nil` only at the head segment: when the value under a plain head is missing or not a dictionary, when an indexed head has no array under its name, or when the element an indexed head selects is not a dictionary. Deeper down the same failures hit `assert(newDict != nil)` and are preconditions. It adds no missing dictionaries along the path; the only growth is an array store at index `count`, which appends.
- **The two merges** (`Merging`). `merge(source, overwriter)` merges deep only when *every* value of the overwriter is a dictionary; otherwise it overwrites shallowly. `merge(input)` lays `config` over `default`. `DeepMerge` is a reference definition of the per-key deep merge.
- **Loading** (`Loader`). This is the layer fold of `init`, taking already parsed files and the environment as parameters. It also covers `supplyDefaults` and `mergeInMissingFromDict`, which inject the default log files.
- **UUID validation** (`Uuid`). `isValidUUID` is shown to accept exactly the hyphenated 8-4-4-4-12 hexadecimal layout of section 3 of RFC 4122. There is no version or variant check.
- **Provisioning profiles** (`Provisioning`). This is `checkProvisioingProfiles`. Profiles that are not UUIDs are resolved through an abstract resolver, and the result is written back with `setValueForKeyPath`.
- **Environment** (`Flattening`). This covers `addDicts`, `flattenKeysInDict` and `environment`. Flattening is compared with an order-independent relation of the `NAME_CHILD` names it emits.
- **Start-up** (`Startup`). This is the whole of `init`: load, supply the defaults, normalise the profiles.

Swift traps are preconditions, not behaviour. These are the failed `as!` casts, force-unwraps, `assert`s, out-of-range array subscripts, and `setValue` on an immutable dictionary. Errors the source reports with `nil` are modelled as `Option` results.

Three inputs are taken as parameters, because the source leaves them to Foundation or to the file system:

- the order in which a Foundation dictionary enumerates its keys
- the resolver that reads a profile's UUID from its file
- the way numbers and booleans print

Some behaviour of the code is easy to misread, and the model states it as written:

- **Which merge is deep.** The merge is deep only when every value of the overwriter is a dictionary. A mixed overwriter replaces even its dictionary entries outright; see `Merging.MixedOverwriterIsShallow`.
- **Writes do not create dictionaries.** A keypath write whose head segment is missing or unsuitable returns `nil`; it does not create the missing dictionary. A missing or unsuitable intermediate below the head fails the `assert` at line 635, and the model excludes it.
- **Missing log entries are not filled in.** The default injection does not fill in missing leaves. A missing default is written to `logs.logs`, because the source looks up `slice[key]`. `Loader.MissingLogIsNotFilled` shows this.
- **`default` stays in the tree.** After several files are folded, the `default` key is never removed, because the code removes `"defaul"`. Without a fallback, `default` therefore reaches the top level of the configuration; see `Loader.LoadSeveralFiles`. With a fallback, `merge(input)` replaces and removes `default`; see `Loader.LoadWithFallback`.
- **One file and several files are handled differently.** A single file becomes `config` directly. With several files, each later file is merged over the ones before it.

## Model

| member | source | states |
|---|---|---|
| StringExtensions.ContainsString | PreBuild/String-Extensions.swift:14-16 | true exactly when the needle is non-empty and occurs contiguously; an empty needle is never found |
| StringExtensions.ContainsSingleChar | PreBuild/String-Extensions.swift:14-16 | for a one-character needle, as used for ':' in the keypath code, containment is membership |
| StringExtensions.SubstringToIndex | PreBuild/String-Extensions.swift:23-26 | the first `i` characters: length `i`, each equal to the string's own |
| StringExtensions.SubstringFromIndex | PreBuild/String-Extensions.swift:28-31 | the characters from `i` to the end, `k`-th is `s[i+k]` |
| StringExtensions.SubstringsReassemble | PreBuild/String-Extensions.swift:23-31 | prefix up to `i` followed by suffix from `i` is the whole string |
| StringExtensions.SubstringToIndexHello | UnitTest/StringExtensionsTest.swift:26 | the unit test's "Hello World" prefix of length 5 is "Hello" |
| StringExtensions.SubstringWithRange | PreBuild/String-Extensions.swift:33-37 | length `b-a`, `k`-th character `s[a+k]` |
| StringExtensions.CharAt | PreBuild/String-Extensions.swift:39-43 | the single character whose one-character range is `[i, i+1)` |
| StringExtensions.Slice | PreBuild/String-Extensions.swift:44-46 | the range subscript has length `b-a`, its `k`-th character being `s[a+k]` |
| StringExtensions.SliceAdjacent | PreBuild/String-Extensions.swift:44-46 | the subscripts of two adjacent ranges concatenate to the subscript of the range spanning both |
| StringExtensions.ReplaceCharactersInRange | PreBuild/String-Extensions.swift:50-54 | length `|s|-(b-a)+|w|`; prefix kept, `w` inserted, suffix shifted |
| StringExtensions.ReplaceIsPrefixInsertSuffix | PreBuild/String-Extensions.swift:50-54 | the replacement equals prefix to `a`, then `w`, then suffix from `b` |
| StringExtensions.Split | PreBuild/PreBuilder.swift:602 | splitting on one character gives separator-free parts, more than one exactly when the separator occurs, that join back to the string |
| StringExtensions.SplitJoin | PreBuild/PreBuilder.swift:602 | splitting separator-free parts joined by the separator gives the parts back |
| KeyPath.LeadingDigits | PreBuild/PreBuilder.swift:102 | the longest all-digit prefix, the numeric part `integerValue` reads |
| KeyPath.IntegerValueOfDecimal | PreBuild/PreBuilder.swift:102 | reading the decimal digits of `n` gives back `n` |
| KeyPath.Get | PreBuild/PreBuilder.swift:84-141 | literal key match on the final segment wins; nil for a missing plain key, a non-dictionary value under a plain intermediate, an indexed intermediate whose element is not a dictionary, a non-array indexed base, and a final index at or past the end |
| KeyPath.ReadJoinedPath | PreBuild/PreBuilder.swift:84-91 | for any dot-free segments, reading their '.'-joined path is reading those segments |
| KeyPathReference.GetIsResolve | PreBuild/PreBuilder.swift:84-141 | when no key contains ':', the read agrees with the segment-by-segment reference resolution |
| KeyPathWrite.SubSegments | PreBuild/PreBuilder.swift:625-632 | the re-joined tail path drops leading empty components and is the tail itself when no component is empty |
| KeyPathWrite.RebuildSplitsToSubSegments | PreBuild/PreBuilder.swift:625-634 | splitting the re-joined tail path again yields exactly the segments the recursive call sees |
| KeyPathWrite.PutElement | PreBuild/PreBuilder.swift:651-652 | the mutable-array store replaces element `i`, or appends at `i == count`, and keeps all others |
| KeyPathWrite.PutAt | PreBuild/PreBuilder.swift:651-689 | storing under a head segment changes only that key or that array element, and the new value is found there |
| KeyPathWrite.Set | PreBuild/PreBuilder.swift:599-699 | succeeds exactly when the path exists as the write needs it; on success only the head key or head element differs, a one-segment write stores the string there; nil for a missing or non-dictionary value under a plain head, for an indexed head without an array, and for an indexed head whose element is not a dictionary |
| KeyPathWrite.WriteJoinedPath | PreBuild/PreBuilder.swift:599-602 | for any dot-free segments, writing at their '.'-joined path is writing at those segments |
| KeyPathWrite.SetThenGet | PreBuild/PreBuilder.swift:599-699 | with no ':' keys and no empty segment between the first and the last (a trailing empty one is allowed), reading back a successful write gives the written string |
| KeyPathWrite.InteriorEmptySegmentDropped | PreBuild/PreBuilder.swift:625-635 | an empty middle segment is lost in the rebuilt sub-keypath: writing at `a..b` stores at `a.b`, while reading `a..b` still looks under the empty key |
| KeyPathWrite.SetSameValueIsIdentity | PreBuild/PreBuilder.swift:599-699 | writing the string already stored at a readable path returns the same tree |
| KeyPathWrite.WriteIndexedScenario | PreBuild/PreBuilder.swift:599-699 | writing "new" at `Targets:0.id` of `{"Targets":[{"id":"old"}]}` yields `{"Targets":[{"id":"new"}]}` while the original still reads "old" |
| KeyPathWrite.OverwritePlainKey | PreBuild/PreBuilder.swift:687-692 | a one-segment write over a string overwrites that key |
| Merging.Merge | PreBuild/PreBuilder.swift:274-295 | source-only keys kept; all-dictionary overwriter merges shared keys recursively and adds new ones; any other dictionary overwriter replaces its keys shallowly; a non-dictionary overwriter leaves the source unchanged |
| Merging.MergeSelf | PreBuild/PreBuilder.swift:274-295 | merging a dictionary over itself gives it back |
| Merging.MergeIsDeepMerge | PreBuild/PreBuilder.swift:274-295 | where every nested overwriter is all-dictionary, the merge is the recursive reference deep merge |
| Merging.MixedOverwriterIsShallow | PreBuild/PreBuilder.swift:278-289 | one non-dictionary value in the overwriter makes a shared dictionary key be replaced, not merged as the deep merge would |
| Merging.ScalarMakesShallow | PreBuild/PreBuilder.swift:278-289 | for any two keys, an overwriter holding a dictionary beside a scalar replaces the source's dictionary outright, where the uniform deep merge merges into it |
| Merging.Overlay | PreBuild/PreBuilder.swift:303-311 | `config` entries are added where `default` lacks them and merged over it where it has them |
| Merging.OverlayIsMerge | PreBuild/PreBuilder.swift:297-311 | for a dictionary of dictionaries, the layer overlay is the two-argument merge |
| Merging.MergeLayers | PreBuild/PreBuilder.swift:297-318 | `default` removed, `config` replaced by the overlay of `config` over `default`, every other key unchanged |
| Loader.AccumulateSnoc | PreBuild/PreBuilder.swift:44-52 | the left-to-right layering of files plus one more is that file laid over the layering of the rest |
| Loader.StepOverHeld | PreBuild/PreBuilder.swift:44-52 | a later file merged over the held layering leaves that layering with the file laid over it under both `config` and `default` |
| Loader.FoldIsAccumulate | PreBuild/PreBuilder.swift:44-52 | the loop over several files holds the left-to-right layering under both `default` and `config` |
| Loader.EnvironmentValue | PreBuild/PreBuilder.swift:60-61 | the environment is stored as a dictionary with the same names, each value a string |
| Loader.Promote | PreBuild/PreBuilder.swift:68-72 | `config` entries move to the top level over same-named keys, other keys stay, `config` is gone |
| Loader.LoadSingleFile | PreBuild/PreBuilder.swift:40-72 | one file without fallback: its entries over the environment, without `config` |
| Loader.LoadSingleFileWithFallback | PreBuild/PreBuilder.swift:40-72 | one file with a fallback: the file laid over the fallback, over the environment, without `config` |
| Loader.LoadSeveralFiles | PreBuild/PreBuilder.swift:43-72 | several files: every key of the left-to-right layering reaches the top level, and `default` survives holding that layering |
| Loader.LoadWithFallback | PreBuild/PreBuilder.swift:63-72 | a fallback lies beneath the layered files at the top level, and `default` disappears unless a file defines it |
| Loader.TwoFileScenario | PreBuild/PreBuilder.swift:35-72 | `{"a":{"x":1,"y":2}}` then `{"a":{"y":9,"z":3}}` loads `a` as `{"x":1,"y":9,"z":3}` |
| Loader.LastMissing | PreBuild/PreBuilder.swift:250-263 | the last default key, in enumeration order, that the `logs` dictionary lacks, if any |
| Loader.FillFromIsLastMissing | PreBuild/PreBuilder.swift:250-263 | the loop leaves `logs.logs` as the original `slice[key]` plus only the last missing default, or unchanged when nothing is missing |
| Loader.MergeInMissingFromDict | PreBuild/PreBuilder.swift:240-272 | other keys unchanged; a missing or non-dictionary slice becomes the defaults; an existing slice keeps its key set and every entry but `key`, and is untouched when no default is missing |
| Loader.SupplyDefaults | PreBuild/PreBuilder.swift:200-223 | always yields `PreBuilder.logs` as a dictionary; built-in log files when `PreBuilder` or `logs` is absent; existing log entries never overwritten; other top-level keys unchanged |
| Loader.MergeInMissingIdempotent | PreBuild/PreBuilder.swift:240-272 | merging the missing defaults in twice is merging them once |
| Loader.SupplyDefaultsIdempotent | PreBuild/PreBuilder.swift:200-223 | supplying the defaults twice is supplying them once |
| Loader.MissingLogIsNotFilled | PreBuild/PreBuilder.swift:250-257 | with only `stdout` configured, `stderr` is not added to `logs` but to `logs.logs` |
| Uuid.Utf8Width | PreBuild/PreBuilder.swift:514 | a character takes 1 to 4 UTF-8 bytes, one exactly when it is ASCII |
| Uuid.Utf8LengthAscii | PreBuild/PreBuilder.swift:514-541 | the byte length equals the character count exactly when every character is ASCII |
| Uuid.RemoveAll | PreBuild/PreBuilder.swift:545 | removing one character's occurrences leaves exactly the other characters |
| Uuid.RemoveEachLeaves | PreBuild/PreBuilder.swift:543-548 | after removing every valid character, what is left is empty exactly when every character was valid |
| Uuid.ValidSetMembers | PreBuild/PreBuilder.swift:543 | the valid set is '-' and the hexadecimal digits in both cases |
| Uuid.IsValidUUID | PreBuild/PreBuilder.swift:509-511 | nil is never valid |
| Uuid.IsValidUUIDIsCanonical | PreBuild/PreBuilder.swift:507-550 | accepted exactly when 36 characters with '-' at 8, 13, 18, 23 and hex digits elsewhere |
| Uuid.ValidIsCanonical | PreBuild/PreBuilder.swift:514-548 | the byte length, group and character checks together force the canonical layout |
| Uuid.CanonicalIsValid | PreBuild/PreBuilder.swift:514-548 | the canonical layout passes every check |
| Uuid.ValidExample | PreBuild/PreBuilder.swift:507-550 | "550e8400-e29b-41d4-a716-446655440000" is valid |
| Uuid.TooShortExample | PreBuild/PreBuilder.swift:514-516 | "550e8400-e29b-41d4-a716" is rejected |
| Uuid.WrongDelimiterExample | PreBuild/PreBuilder.swift:518-521 | the underscore-delimited form is rejected |
| Provisioning.TargetsIsKeyPathRead | PreBuild/PreBuilder.swift:706 | the targets the pass walks are the keypath read of `PreBuilder.Targets`, when that is a dictionary |
| Provisioning.ProfilePathSplits | PreBuild/PreBuilder.swift:721 | the interpolated profile path splits into its six segments for plain target and configuration names |
| Provisioning.SetIsPutProfile | PreBuild/PreBuilder.swift:721 | writing at the profile path succeeds and replaces just that configuration's profile |
| Provisioning.SlotsOfWithProfiles | PreBuild/PreBuilder.swift:707-709 | rewriting profiles keeps the same targets and the same (target, configuration) slots |
| Provisioning.WithProfilesReadable | PreBuild/PreBuilder.swift:707-711 | after rewriting, every slot still has a string profile: the chosen one, or the old one |
| Provisioning.PutProfileWithProfiles | PreBuild/PreBuilder.swift:721-722 | writing one more slot's profile is choosing that profile as well |
| Provisioning.ResolvedProfiles | PreBuild/PreBuilder.swift:707-725 | one resolved profile for every slot of the tree and no other |
| Provisioning.VisitOutcome | PreBuild/PreBuilder.swift:711-724 | a valid or unresolvable profile changes nothing; otherwise the keypath write succeeds and stores the UUID |
| Provisioning.VisitSlot | PreBuild/PreBuilder.swift:709-726 | one inner-loop iteration leaves the slot with its resolved profile and every other slot as before |
| Provisioning.CheckProvisioningProfiles | PreBuild/PreBuilder.swift:701-733 | for any enumeration order, the pass yields the tree with every profile resolved |
| Provisioning.NormalizedProfiles | PreBuild/PreBuilder.swift:701-733 | same slots, each with its resolved profile, all still readable |
| Provisioning.NormalizedUnchanged | PreBuild/PreBuilder.swift:712-724 | when every profile is valid or unresolvable the tree is unchanged |
| Provisioning.NonDictionaryTargetSkipped | PreBuild/PreBuilder.swift:706-708 | a target that is not a dictionary has no `Configurations` and is skipped: the pass accepts the tree and returns it unchanged |
| Provisioning.NormalizedProfileValid | PreBuild/PreBuilder.swift:712-724 | a slot whose profile is valid or resolves to a valid UUID ends with a valid UUID |
| Flattening.AddDicts | PreBuild/PreBuilder.swift:347-353 | keys of both; the second dictionary's values win |
| Flattening.EntriesGrow | PreBuild/PreBuilder.swift:362-377 | the loop over entries never loses a name |
| Flattening.FlattenSound | PreBuild/PreBuilder.swift:355-380 | every flattened name is emitted by some entry with the value it receives |
| Flattening.FlattenComplete | PreBuild/PreBuilder.swift:355-380 | every emitted name appears, when the enumeration lists every key |
| Flattening.FlattenExact | PreBuild/PreBuilder.swift:355-380 | the flattened names are exactly the emitted ones; a name emitted with one value only has that value, whatever the order |
| Flattening.Settings | PreBuild/PreBuilder.swift:383-384 | the configuration without `environment` |
| Flattening.BuildEnvironment | PreBuild/PreBuilder.swift:382-388 | names of `environment` and of the flattened settings; flattened values win; other `environment` strings kept |
| Flattening.EnvironmentExact | PreBuild/PreBuilder.swift:382-388 | a name is present exactly when in `environment` or emitted by a setting; an uncontested emitted value is the one used |
| Flattening.NestedArrayUnprefixed | PreBuild/PreBuilder.swift:374-376 | an array two dictionaries deep is filed under its bare key |
| Startup.Init | PreBuild/PreBuilder.swift:35-78 | the configuration has the loaded top-level keys plus `PreBuilder`, other keys as loaded, and is the normalised default-supplied load |

## Left out

- Reading and parsing files (`readFileAsJSON`, `NSJSONSerialization`) is left out. The model takes the parsed dictionaries as parameters.
- The process environment (`NSProcessInfo`) is left out. It is a parameter.
- Copying the profile into the provisioning-profiles directory (`task("/bin/cp", …)`) is left out. It is a side effect on the file system.
- `UUIDForProvisioningProfileAtFilePath` is left out. It reads files and parses property lists, so the model has the abstract `resolve` in its place.
- Dictionary enumeration order is a parameter (`order`, `logOrder`, `slots`). Foundation does not specify it.
- How numbers, booleans, arrays and null print (`String(value)` in `flattenKeysInDict`) is the abstract `describe`. Floating-point JSON numbers and the bridging of NSNumber between Int and Bool are left out.
- `splitByCharacter` is not part of this model. It is taken to split on one character, like `componentsSeparatedByString`.
- KeyPath.IntegerValue: reads only an optional sign and the leading digits. Leading whitespace and saturation on overflow are not modelled, because keypath indices are short digit strings.
- Uuid.Utf8Length: counts UTF-8 bytes per Unicode scalar; Swift's grapheme clusters and UTF-16 indexing are not modelled, because strings are `seq<char>`.
- Provisioning.CheckProvisioningProfiles: requires every configuration to hold a string profile, since a missing one is a trap in the source (line 714). For the slots whose profile is written back (not a valid UUID, and the resolver finds a UUID), it also requires target and configuration names that are non-empty and free of '.' and ':'. Such a name would make the keypath of line 721 address another place, and an empty name is dropped by the tail rebuild of lines 625-632. That misaddressed write is not modelled. Slots that are not written may have any names.
- KeyPathWrite.Set: excludes a missing or unsuitable intermediate below the head, which fails `assert(newDict != nil)` at line 635. In a build without assertions, the plain-head branch would then store nil and so delete the head key (line 657), and the indexed branch would trap on `newDict!` (line 652). Neither is modelled.
- Provisioning.NormalizedProfiles: states the result for the profiles only. Other keys inside a target or configuration are kept by construction of `WithProfiles`.
- The build steps (`runClean`, `runAssets`, `runSettings`, `runEditInfoPlist`, `runMakeConfigurationPlist`, `runProvisioningProfiles`, `run`, `cleanOutDir`) are left out. So are `task`, `hook`, the logging functions, `dumpConfig` and PreBuild/main.swift. They orchestrate external tools and files.

=== FILE: environment.dfy ===
/**
  The build environment handed to the build tools: the `environment`
  dictionary of the configuration, overlaid by every other setting flattened
  into `PARENT_CHILD` names (PreBuild/PreBuilder.swift:347-389).

  Dictionary enumeration order is not part of the tree, so it is a parameter
  `order`; the relation `Emits` says which name/value pairs flattening
  produces regardless of order, and the lemmas tie the function to it.
  How numbers, booleans, arrays and null print is the abstract `describe`.
 */
module Flattening {
  import opened Values

  type Environment = map<string, string>

  /** `addDicts`: the entries of `b` laid over those of `a`. */
  function AddDicts<V>(a: map<string, V>, b: map<string, V>): (r: map<string, V>)
    ensures r.Keys == a.Keys + b.Keys
    ensures forall k | k in b :: r[k] == b[k]
    ensures forall k | k in a && k !in b :: r[k] == a[k]
  {
    a + b
  }

  /** A non-empty prefix gets its separating '_' (lines 357-359). */
  function Prefixed(prefix: string): (r: string)
    ensures prefix == [] ==> r == []
    ensures prefix != [] ==> |r| == |prefix| + 1 && r[..|prefix|] == prefix && r[|prefix|] == '_'
  {
    if prefix == [] then [] else prefix + ['_']
  }

  /** Every dictionary's order lists every key of that dictionary. */
  ghost predicate Covers(order: Dictionary -> seq<string>)
  {
    forall d: Dictionary, k | k in d :: k in order(d)
  }

  // ---------------------------------------------------------------------
  // flattenKeysInDict
  // ---------------------------------------------------------------------

  /** `flattenKeysInDict(dict, keyPrefix)` for the dictionary `v`. */
  function Flatten(v: Value, prefix: string, describe: Value -> string, order: Dictionary -> seq<string>): Environment
    requires v.Dict?
    decreases v, 2
  {
    Entries(v, Prefixed(prefix), order(v.entries), map[], describe, order)
  }

  /**
    The loop over the dictionary's entries in `ks`, with the underscored
    prefix `p` and the result `acc` built so far. Strings keep their text;
    numbers and booleans are described; a nested dictionary is flattened under
    `p + k` and laid over the result; anything else is described under its
    bare key, without the prefix (line 375).
   */
  function Entries(v: Value, p: string, ks: seq<string>, acc: Environment,
                   describe: Value -> string, order: Dictionary -> seq<string>): Environment
    requires v.Dict?
    decreases v, 1, |ks|
  {
    if ks == [] then acc
    else if ks[0] !in v.entries then Entries(v, p, ks[1..], acc, describe, order)
    else Entries(v, p, ks[1..], EntryStep(v, p, ks[0], acc, describe, order), describe, order)
  }

  /** One iteration of the loop, for the key `k` of the dictionary `v`. */
  function EntryStep(v: Value, p: string, k: string, acc: Environment,
                     describe: Value -> string, order: Dictionary -> seq<string>): (r: Environment)
    requires v.Dict? && k in v.entries
    ensures acc.Keys <= r.Keys
    decreases v, 0
  {
    var x := v.entries[k];
    match x
    case Str(s) => acc[p + k := s]
    case Int(_) => acc[p + k := describe(x)]
    case Bool(_) => acc[p + k := describe(x)]
    case Dict(_) => AddDicts(acc, Flatten(x, p + k, describe, order))
    case _ => acc[k := describe(x)]
  }

  // ---------------------------------------------------------------------
  // What flattening emits, independent of order
  // ---------------------------------------------------------------------

  /** Some entry of the dictionary `v`, under prefix `p`, emits `key` = `val`. */
  ghost predicate Emits(v: Value, p: string, key: string, val: string, describe: Value -> string)
    requires v.Dict?
    decreases v, 0
  {
    exists k | k in v.entries :: EntryEmits(v.entries[k], p, k, key, val, describe)
  }

  /** The entry `k` = `x` under prefix `p` emits `key` = `val`. */
  ghost predicate EntryEmits(x: Value, p: string, k: string, key: string, val: string, describe: Value -> string)
    decreases x, 1
  {
    match x
    case Str(s) => key == p + k && val == s
    case Int(_) => key == p + k && val == describe(x)
    case Bool(_) => key == p + k && val == describe(x)
    case Dict(_) => Emits(x, Prefixed(p + k), key, val, describe)
    case _ => key == k && val == describe(x)
  }

  /** Every name in `r` is emitted with the value `r` gives it. */
  ghost predicate AllEmitted(v: Value, p: string, r: Environment, describe: Value -> string)
    requires v.Dict?
  {
    forall key | key in r :: Emits(v, p, key, r[key], describe)
  }

  // ---------------------------------------------------------------------
  // Flatten against Emits
  // ---------------------------------------------------------------------

  /** The loop only ever adds names. */
  lemma {:induction false} EntriesGrow(v: Value, p: string, ks: seq<string>, acc: Environment,
                                       describe: Value -> string, order: Dictionary -> seq<string>)
    requires v.Dict?
    ensures acc.Keys <= Entries(v, p, ks, acc, describe, order).Keys
    decreases |ks|
  {
    if ks != [] {
      if ks[0] !in v.entries {
        EntriesGrow(v, p, ks[1..], acc, describe, order);
      } else {
        var next := EntryStep(v, p, ks[0], acc, describe, order);
        EntriesGrow(v, p, ks[1..], next, describe, order);
      }
    }
  }

  /** Every name flattening produces is emitted with the value it gets. */
  lemma {:induction false} FlattenSound(v: Value, prefix: string, describe: Value -> string, order: Dictionary -> seq<string>)
    requires v.Dict?
    ensures AllEmitted(v, Prefixed(prefix), Flatten(v, prefix, describe, order), describe)
    decreases v, 2
  {
    EntriesSound(v, Prefixed(prefix), order(v.entries), map[], describe, order);
  }

  lemma {:induction false} EntriesSound(v: Value, p: string, ks: seq<string>, acc: Environment,
                                        describe: Value -> string, order: Dictionary -> seq<string>)
    requires v.Dict?
    requires AllEmitted(v, p, acc, describe)
    ensures AllEmitted(v, p, Entries(v, p, ks, acc, describe, order), describe)
    decreases v, 1, |ks|
  {
    if ks != [] {
      if ks[0] !in v.entries {
        EntriesSound(v, p, ks[1..], acc, describe, order);
      } else {
        EntryStepSound(v, p, ks[0], acc, describe, order);
        EntriesSound(v, p, ks[1..], EntryStep(v, p, ks[0], acc, describe, order), describe, order);
      }
    }
  }

  lemma {:induction false} EntryStepSound(v: Value, p: string, k: string, acc: Environment,
                                          describe: Value -> string, order: Dictionary -> seq<string>)
    requires v.Dict? && k in v.entries
    requires AllEmitted(v, p, acc, describe)
    ensures AllEmitted(v, p, EntryStep(v, p, k, acc, describe, order), describe)
    decreases v, 0
  {
    var x := v.entries[k];
    var r := EntryStep(v, p, k, acc, describe, order);
    if x.Dict? {
      var inner := Flatten(x, p + k, describe, order);
      FlattenSound(x, p + k, describe, order);
      forall key | key in r ensures Emits(v, p, key, r[key], describe) {
        if key in inner {
          assert r[key] == inner[key];
          assert Emits(x, Prefixed(p + k), key, r[key], describe);
          assert EntryEmits(v.entries[k], p, k, key, r[key], describe);
        }
      }
    } else {
      forall key | key in r ensures Emits(v, p, key, r[key], describe) {
        if key !in acc || r[key] != acc[key] {
          assert EntryEmits(v.entries[k], p, k, key, r[key], describe);
        }
      }
    }
  }

  /** Every emitted name is produced, when `order` lists every key. */
  lemma {:induction false} FlattenComplete(v: Value, prefix: string, key: string, val: string,
                                           describe: Value -> string, order: Dictionary -> seq<string>)
    requires v.Dict? && Covers(order)
    requires Emits(v, Prefixed(prefix), key, val, describe)
    ensures key in Flatten(v, prefix, describe, order)
    decreases v, 2
  {
    var k :| k in v.entries && EntryEmits(v.entries[k], Prefixed(prefix), k, key, val, describe);
    assert k in order(v.entries);
    EntriesComplete(v, Prefixed(prefix), order(v.entries), map[], k, key, val, describe, order);
  }

  lemma {:induction false} EntriesComplete(v: Value, p: string, ks: seq<string>, acc: Environment,
                                           k: string, key: string, val: string,
                                           describe: Value -> string, order: Dictionary -> seq<string>)
    requires v.Dict? && Covers(order)
    requires k in ks && k in v.entries
    requires EntryEmits(v.entries[k], p, k, key, val, describe)
    ensures key in Entries(v, p, ks, acc, describe, order)
    decreases v, 1, |ks|
  {
    if ks[0] == k {
      var x := v.entries[k];
      var next := EntryStep(v, p, k, acc, describe, order);
      if x.Dict? {
        FlattenComplete(x, p + k, key, val, describe, order);
      }
      assert key in next;
      EntriesGrow(v, p, ks[1..], next, describe, order);
    } else if ks[0] !in v.entries {
      EntriesComplete(v, p, ks[1..], acc, k, key, val, describe, order);
    } else {
      var next := EntryStep(v, p, ks[0], acc, describe, order);
      EntriesComplete(v, p, ks[1..], next, k, key, val, describe, order);
    }
  }

  /** Some value is emitted under `key`. */
  ghost predicate Emitted(v: Value, p: string, key: string, describe: Value -> string)
    requires v.Dict?
  {
    exists val :: Emits(v, p, key, val, describe)
  }

  /** `val` is the one value emitted under `key`: no collision on that name. */
  ghost predicate EmittedOnly(v: Value, p: string, key: string, val: string, describe: Value -> string)
    requires v.Dict?
  {
    Emits(v, p, key, val, describe) && forall other | Emits(v, p, key, other, describe) :: other == val
  }

  /**
    Flattening produces exactly the emitted names, each with a value it is
    emitted with; a name emitted with one value only gets that value,
    whatever the enumeration order.
   */
  lemma FlattenExact(v: Value, prefix: string, key: string, describe: Value -> string, order: Dictionary -> seq<string>)
    requires v.Dict? && Covers(order)
    ensures key in Flatten(v, prefix, describe, order) <==> Emitted(v, Prefixed(prefix), key, describe)
    ensures key in Flatten(v, prefix, describe, order) ==>
              Emits(v, Prefixed(prefix), key, Flatten(v, prefix, describe, order)[key], describe)
    ensures forall val | EmittedOnly(v, Prefixed(prefix), key, val, describe) ::
              key in Flatten(v, prefix, describe, order) && Flatten(v, prefix, describe, order)[key] == val
  {
    FlattenSound(v, prefix, describe, order);
    if Emitted(v, Prefixed(prefix), key, describe) {
      var val :| Emits(v, Prefixed(prefix), key, val, describe);
      FlattenComplete(v, prefix, key, val, describe, order);
    }
  }

  // ---------------------------------------------------------------------
  // environment
  // ---------------------------------------------------------------------

  /** The settings that are flattened: everything but `environment` (lines 383-384). */
  function Settings(config: Dictionary): (r: Value)
    ensures r.Dict? && r.entries.Keys == config.Keys - {"environment"}
    ensures forall k | k in r.entries :: r.entries[k] == config[k]
  {
    Dict(config - {"environment"})
  }

  /**
    The `as! [String:String]` at line 386 holds: every `environment` entry
    that no flattened setting replaces is a string.
   */
  predicate EnvironmentStrings(config: Dictionary, describe: Value -> string, order: Dictionary -> seq<string>)
    requires "environment" in config && config["environment"].Dict?
  {
    var flat := Flatten(Settings(config), "", describe, order);
    var env := config["environment"].entries;
    forall k | k in env && k !in flat :: env[k].Str?
  }

  /**
    `environment()`: the `environment` dictionary overlaid by the flattened
    settings. The force-unwrap and casts at lines 385-386 are the requires.
   */
  function BuildEnvironment(config: Dictionary, describe: Value -> string, order: Dictionary -> seq<string>): (r: Environment)
    requires "environment" in config && config["environment"].Dict?
    requires EnvironmentStrings(config, describe, order)
    ensures r.Keys == config["environment"].entries.Keys + Flatten(Settings(config), "", describe, order).Keys
    ensures forall k | k in Flatten(Settings(config), "", describe, order) ::
              r[k] == Flatten(Settings(config), "", describe, order)[k]
    ensures forall k | k in config["environment"].entries && k !in Flatten(Settings(config), "", describe, order) ::
              config["environment"].entries[k] == Str(r[k])
  {
    var flat := Flatten(Settings(config), "", describe, order);
    var env := config["environment"].entries;
    AddDicts(map k | k in env && k !in flat :: env[k].s, flat)
  }

  /**
    A name of the environment is a setting emitted by flattening, with the
    value it is emitted with (the only one, when no two settings flatten to
    that name), or else an `environment` entry kept as is.
   */
  lemma EnvironmentExact(config: Dictionary, key: string, describe: Value -> string, order: Dictionary -> seq<string>)
    requires "environment" in config && config["environment"].Dict?
    requires EnvironmentStrings(config, describe, order)
    requires Covers(order)
    ensures key in BuildEnvironment(config, describe, order) <==>
              key in config["environment"].entries || Emitted(Settings(config), "", key, describe)
    ensures Emitted(Settings(config), "", key, describe) ==>
              Emits(Settings(config), "", key, BuildEnvironment(config, describe, order)[key], describe)
    ensures forall val | EmittedOnly(Settings(config), "", key, val, describe) ::
              BuildEnvironment(config, describe, order)[key] == val
    ensures key in config["environment"].entries && !Emitted(Settings(config), "", key, describe) ==>
              config["environment"].entries[key] == Str(BuildEnvironment(config, describe, order)[key])
  {
    FlattenExact(Settings(config), "", key, describe, order);
  }

  /**
    The array quirk at line 375: a list two levels down is filed under its
    bare name, not under the names of the dictionaries around it.
   */
  lemma NestedArrayUnprefixed(outer: string, inner: string, list: seq<Value>, describe: Value -> string, order: Dictionary -> seq<string>)
    requires Covers(order)
    ensures var v := Dict(map[outer := Dict(map[inner := Array(list)])]);
            inner in Flatten(v, "", describe, order)
  {
    var x := Dict(map[inner := Array(list)]);
    var v := Dict(map[outer := x]);
    assert EntryEmits(Array(list), Prefixed(outer), inner, inner, describe(Array(list)), describe);
    assert x.entries[inner] == Array(list);
    assert EntryEmits(x.entries[inner], Prefixed(outer), inner, inner, describe(Array(list)), describe);
    assert Emits(x, Prefixed(outer), inner, describe(Array(list)), describe);
    assert v.entries[outer] == x;
    assert EntryEmits(v.entries[outer], [], outer, inner, describe(Array(list)), describe);
    FlattenComplete(v, "", inner, describe(Array(list)), describe, order);
  }
}

=== FILE: init.dfy ===
/**
  `init` of PreBuild/PreBuilder.swift (lines 35-78) end to end: load and
  promote the layers, supply the default log files, then normalise the
  provisioning profiles.
 */
module Startup {
  import opened Options
  import opened Values
  import opened Loader
  import opened Provisioning

  /**
    The configuration the tool runs with. `logOrder` and `slots` are the
    orders in which the two dictionaries are enumerated; `resolve` stands
    for reading a profile's UUID from its file.
   */
  method Init(files: seq<Dictionary>, fallback: Option<Dictionary>, env: map<string, string>,
              logOrder: seq<string>, slots: seq<Slot>, resolve: string -> Option<string>)
    returns (config: Dictionary)
    requires LoadDefined(files, fallback, env)
    requires Enumerates(logOrder, DefaultLogFiles) && SupplyDefined(Load(files, fallback, env))
    requires ProfilesReadable(SupplyDefaults(Load(files, fallback, env), logOrder))
    requires WritesPlain(SupplyDefaults(Load(files, fallback, env), logOrder), resolve)
    requires EnumeratesSlots(slots, SupplyDefaults(Load(files, fallback, env), logOrder))
    ensures config.Keys == Load(files, fallback, env).Keys + {"PreBuilder"}
    ensures forall k | k in Load(files, fallback, env) && k != "PreBuilder" :: config[k] == Load(files, fallback, env)[k]
    ensures config == Normalized(SupplyDefaults(Load(files, fallback, env), logOrder), resolve)
  {
    var loaded := Load(files, fallback, env);
    var supplied := SupplyDefaults(loaded, logOrder);
    config := CheckProvisioningProfiles(supplied, slots, resolve);
  }
}

=== FILE: keypath.dfy ===
/**
  Keypath reading and writing (`valueForKeyPathFromDict` and
  `setValueForKeyPath` in PreBuild/PreBuilder.swift). A keypath is split on
  '.' into segments; a segment `name:i` addresses element `i` of the array
  stored under `name`. The source's traps (an array index out of range, a
  forced unwrap of nil, `setValue` on an immutable dictionary, a failing
  `assert`) are the preconditions `ReadDefined` and `Writable`.
 */
module KeyPath {

  import opened Options
  import opened Values
  import opened StringExtensions

  // ---------------------------------------------------------------------
  // Index parsing: `NSString.integerValue`
  // ---------------------------------------------------------------------

  predicate IsDigit(ch: char)
  {
    '0' <= ch <= '9'
  }

  /** The longest prefix of `s` made of decimal digits. */
  function LeadingDigits(s: string): (r: string)
    ensures |r| <= |s| && r == s[..|r|]
    ensures forall k | 0 <= k < |r| :: IsDigit(r[k])
    ensures |r| < |s| ==> !IsDigit(s[|r|])
  {
    if s == [] || !IsDigit(s[0]) then []
    else [s[0]] + LeadingDigits(s[1..])
  }

  /** The number a string of decimal digits denotes (0 for no digits). */
  function DigitsValue(ds: string): nat
    requires forall k | 0 <= k < |ds| :: IsDigit(ds[k])
    decreases |ds|
  {
    if ds == [] then 0
    else
      assert IsDigit(ds[|ds| - 1]);
      DigitsValue(ds[..|ds| - 1]) * 10 + (ds[|ds| - 1] as int - '0' as int)
  }

  /**
    `NSString.integerValue`: an optional sign followed by the longest run of
    digits; text without leading digits reads as 0.
   */
  function IntegerValue(s: string): int
  {
    if |s| > 0 && s[0] == '-' then -(DigitsValue(LeadingDigits(s[1..])) as int)
    else if |s| > 0 && s[0] == '+' then DigitsValue(LeadingDigits(s[1..]))
    else DigitsValue(LeadingDigits(s))
  }

  /** The decimal numeral of `n`, without sign or leading zeros. */
  function DecimalString(n: nat): (r: string)
    ensures |r| >= 1
    ensures forall k | 0 <= k < |r| :: IsDigit(r[k])
  {
    if n < 10 then [('0' as int + n) as char]
    else DecimalString(n / 10) + [('0' as int + n % 10) as char]
  }

  /** A string that is all digits is its own digit prefix. */
  lemma {:induction false} LeadingDigitsOfDigits(s: string)
    requires forall k | 0 <= k < |s| :: IsDigit(s[k])
    ensures LeadingDigits(s) == s
    decreases |s|
  {
    if s != [] {
      LeadingDigitsOfDigits(s[1..]);
    }
  }

  /** `integerValue` reads back every numeral `DecimalString` writes. */
  lemma {:induction false} IntegerValueOfDecimal(n: nat)
    ensures IntegerValue(DecimalString(n)) == n
  {
    var ds := DecimalString(n);
    LeadingDigitsOfDigits(ds);
    DigitsValueOfDecimal(n);
  }

  lemma {:induction false} DigitsValueOfDecimal(n: nat)
    ensures DigitsValue(DecimalString(n)) == n
  {
    if n >= 10 {
      var ds := DecimalString(n);
      assert ds[..|ds| - 1] == DecimalString(n / 10);
      DigitsValueOfDecimal(n / 10);
    }
  }

  // ---------------------------------------------------------------------
  // Segments
  // ---------------------------------------------------------------------

  /** The array key of an indexed segment: the text before its first ':'. */
  function IndexName(key: string): string
  {
    Split(key, ':')[0]
  }

  /** The index of an indexed segment: `integerValue` of the text after the first ':'. */
  function IndexOf(key: string): int
    requires ':' in key
  {
    IntegerValue(Split(key, ':')[1])
  }

  /** The array an indexed segment addresses, when `d[name]` is an array. */
  predicate HasArray(d: Dictionary, key: string)
  {
    IndexName(key) in d && d[IndexName(key)].Array?
  }

  // ---------------------------------------------------------------------
  // Reading: valueForKeyPathFromDict
  // ---------------------------------------------------------------------

  /**
    Reading `keys` in `d` does not trap: the walk never indexes an array
    with a negative index, and an intermediate index is within bounds (the
    source checks the bound only for the final segment).
   */
  predicate ReadDefined(d: Dictionary, keys: seq<string>)
    decreases |keys|
  {
    |keys| > 0 &&
    var key := keys[0];
    if |keys| == 1 then
      key !in d && ':' in key && HasArray(d, key) ==> IndexOf(key) >= 0
    else if key in d && d[key].Dict? then
      ReadDefined(d[key].entries, keys[1..])
    else if ':' in key && HasArray(d, key) then
      var items := d[IndexName(key)].items;
      0 <= IndexOf(key) < |items| &&
      (items[IndexOf(key)].Dict? ==> ReadDefined(items[IndexOf(key)].entries, keys[1..]))
    else
      true
  }

  /**
    The value at `keys` in `d`. At every segment a literal key is tried
    first; only when that fails is a segment containing ':' read as
    `name:index`. An intermediate segment must lead to a dictionary.
   */
  function Get(d: Dictionary, keys: seq<string>): (r: Option<Value>)
    requires ReadDefined(d, keys)
    // the final segment: a literal key wins, even one containing ':'
    ensures |keys| == 1 && keys[0] in d ==> r == Some(d[keys[0]])
    // a missing plain key
    ensures keys[0] !in d && ':' !in keys[0] ==> r == None
    // an intermediate value that is not a dictionary, under a plain key
    ensures |keys| > 1 && ':' !in keys[0] && keys[0] in d && !d[keys[0]].Dict? ==> r == None
    // an indexed segment whose base is absent or not an array
    ensures (!(keys[0] in d && (|keys| > 1 ==> d[keys[0]].Dict?)) && ':' in keys[0]
             && !HasArray(d, keys[0])) ==> r == None
    // an indexed intermediate whose element is not a dictionary
    ensures (|keys| > 1 && !(keys[0] in d && d[keys[0]].Dict?) && ':' in keys[0] && HasArray(d, keys[0])
             && !d[IndexName(keys[0])].items[IndexOf(keys[0])].Dict?) ==> r == None
    // a final index at or past the end
    ensures (|keys| == 1 && keys[0] !in d && ':' in keys[0] && HasArray(d, keys[0])
             && IndexOf(keys[0]) >= |d[IndexName(keys[0])].items|) ==> r == None
    decreases |keys|
  {
    var key := keys[0];
    if |keys| == 1 then
      if key in d then Some(d[key])
      else if ':' in key && HasArray(d, key) then
        var items := d[IndexName(key)].items;
        if IndexOf(key) < |items| then Some(items[IndexOf(key)]) else None
      else None
    else if key in d && d[key].Dict? then
      Get(d[key].entries, keys[1..])
    else if ':' in key && HasArray(d, key) then
      var element := d[IndexName(key)].items[IndexOf(key)];
      if element.Dict? then Get(element.entries, keys[1..]) else None
    else None
  }

  /** `valueForKeyPathFromDict(d, path)`. */
  function ValueForKeyPath(d: Dictionary, path: string): Option<Value>
    requires ReadDefined(d, Split(path, '.'))
  {
    Get(d, Split(path, '.'))
  }

  /** Reading the dotted path of dot-free segments is reading those segments. */
  lemma ReadJoinedPath(d: Dictionary, keys: seq<string>)
    requires |keys| > 0 && forall i | 0 <= i < |keys| :: '.' !in keys[i]
    requires ReadDefined(d, keys)
    ensures ReadDefined(d, Split(Join(keys, '.'), '.'))
    ensures ValueForKeyPath(d, Join(keys, '.')) == Get(d, keys)
  {
    SplitJoin(keys, '.');
  }

}

module KeyPathReference {

  import opened Options
  import opened Values
  import opened StringExtensions
  import opened KeyPath

  /** A parsed keypath segment: a plain key, or `name:index`. */
  datatype Segment = Key(name: string) | At(name: string, index: int)

  function ParseSegment(raw: string): Segment
  {
    if ':' in raw then At(IndexName(raw), IndexOf(raw)) else Key(raw)
  }

  function ParseAll(raw: seq<string>): (segs: seq<Segment>)
    ensures |segs| == |raw|
    ensures forall i | 0 <= i < |raw| :: segs[i] == ParseSegment(raw[i])
  {
    seq(|raw|, i requires 0 <= i < |raw| => ParseSegment(raw[i]))
  }

  /** One step of the keypath grammar: a present key, or an in-bounds array element. */
  function Step(d: Dictionary, seg: Segment): Option<Value>
  {
    match seg
    case Key(k) => if k in d then Some(d[k]) else None
    case At(k, i) =>
      if k in d && d[k].Array? && 0 <= i < |d[k].items| then Some(d[k].items[i]) else None
  }

  /**
    Reference reading over parsed segments: every segment but the last must
    reach a dictionary, and the last one designates the value itself.
   */
  function Resolve(d: Dictionary, segs: seq<Segment>): Option<Value>
    requires |segs| > 0
    decreases |segs|
  {
    var v := Step(d, segs[0]);
    if |segs| == 1 then v
    else if v.Some? && v.value.Dict? then Resolve(v.value.entries, segs[1..])
    else None
  }

  /**
    When no key of the tree contains ':', the source's reading (literal key
    first, then `name:index`) is the reference reading of the parsed path.
   */
  lemma {:induction false} GetIsResolve(d: Dictionary, keys: seq<string>)
    requires ReadDefined(d, keys)
    requires NoColonKeys(Dict(d))
    ensures Get(d, keys) == Resolve(d, ParseAll(keys))
    decreases |keys|
  {
    var segs := ParseAll(keys);
    var key := keys[0];
    if |keys| > 1 {
      assert segs[1..] == ParseAll(keys[1..]);
      if key in d && d[key].Dict? {
        GetIsResolve(d[key].entries, keys[1..]);
      } else if ':' in key && HasArray(d, key) {
        var element := d[IndexName(key)].items[IndexOf(key)];
        assert NoColonKeys(d[IndexName(key)]);
        assert NoColonKeys(element);
        if element.Dict? {
          GetIsResolve(element.entries, keys[1..]);
        }
      }
    }
  }

}

=== FILE: keypath_write.dfy ===
/**
  `setValueForKeyPath` (PreBuild/PreBuilder.swift:599-699): writes a string at
  a keypath and returns a new dictionary, or nil when the structure the path
  needs is absent. It never creates intermediate dictionaries or array
  elements, and the input is never changed.
 */
module KeyPathWrite {

  import opened Options
  import opened Values
  import opened StringExtensions
  import opened KeyPath

  // ---------------------------------------------------------------------
  // The sub-keypath the recursion is given (lines 625-632)
  // ---------------------------------------------------------------------

  /** `tail` without its leading empty components. */
  function DropLeadingEmpty(tail: seq<string>): (r: seq<string>)
    ensures |r| <= |tail| && r == tail[|tail| - |r|..]
    ensures r != [] ==> r[0] != ""
    decreases |tail|
  {
    if tail != [] && tail[0] == "" then DropLeadingEmpty(tail[1..]) else tail
  }

  /**
    The text the loop at lines 625-632 builds from the remaining components:
    each is appended after a '.', except that while the text is still empty
    a component replaces it.
   */
  function Rebuild(tail: seq<string>): string
    decreases |tail|
  {
    if tail == [] then []
    else
      var acc := Rebuild(tail[..|tail| - 1]);
      if acc == [] then tail[|tail| - 1] else acc + "." + tail[|tail| - 1]
  }

  /** The segments of the rebuilt sub-keypath: leading empty components are lost. */
  function SubSegments(tail: seq<string>): (r: seq<string>)
    ensures 1 <= |r| && (tail != [] ==> |r| <= |tail|)
    ensures (forall i | 0 <= i < |tail| :: tail[i] != "") && tail != [] ==> r == tail
  {
    var t := DropLeadingEmpty(tail);
    if t == [] then [[]] else t
  }

  lemma {:induction false} DropLeadingEmptySnoc(init: seq<string>, x: string)
    ensures DropLeadingEmpty(init + [x])
         == if DropLeadingEmpty(init) == [] then DropLeadingEmpty([x]) else DropLeadingEmpty(init) + [x]
    decreases |init|
  {
    if init != [] {
      var whole := init + [x];
      assert whole[0] == init[0] && whole[1..] == init[1..] + [x];
      if init[0] == "" {
        assert DropLeadingEmpty(whole) == DropLeadingEmpty(init[1..] + [x]);
        assert DropLeadingEmpty(init) == DropLeadingEmpty(init[1..]);
        DropLeadingEmptySnoc(init[1..], x);
      } else {
        assert DropLeadingEmpty(whole) == whole;
        assert DropLeadingEmpty(init) == init;
      }
    }
  }

  lemma JoinCoversFirst(parts: seq<string>, c: char)
    requires |parts| >= 1
    ensures |Join(parts, c)| >= |parts[0]|
  {
  }

  /** The rebuilt text is the join of the components left after dropping leading empties. */
  lemma {:induction false} RebuildIsJoin(tail: seq<string>)
    ensures Rebuild(tail) == Join(DropLeadingEmpty(tail), '.')
    decreases |tail|
  {
    if tail != [] {
      var init, x := tail[..|tail| - 1], tail[|tail| - 1];
      assert tail == init + [x];
      RebuildIsJoin(init);
      RebuildStep(init, x);
    }
  }

  /** One more component keeps the rebuilt text the join of the non-leading-empty components. */
  lemma RebuildStep(init: seq<string>, x: string)
    requires Rebuild(init) == Join(DropLeadingEmpty(init), '.')
    ensures Rebuild(init + [x]) == Join(DropLeadingEmpty(init + [x]), '.')
  {
    var tail := init + [x];
    assert tail[..|tail| - 1] == init && tail[|tail| - 1] == x;
    DropLeadingEmptySnoc(init, x);
    var l := DropLeadingEmpty(init);
    var acc := Rebuild(init);
    assert Rebuild(tail) == if acc == [] then x else acc + "." + x;
    if l == [] {
      assert DropLeadingEmpty([x]) == [x] || DropLeadingEmpty([x]) == [];
    } else {
      JoinCoversFirst(l, '.');
      JoinSnoc(l, '.', x);
    }
  }

  /**
    Splitting the rebuilt sub-keypath on '.' gives `SubSegments`, which is
    what the model's recursion descends with.
   */
  lemma RebuildSplitsToSubSegments(tail: seq<string>)
    requires forall i | 0 <= i < |tail| :: '.' !in tail[i]
    ensures Split(Rebuild(tail), '.') == SubSegments(tail)
  {
    RebuildIsJoin(tail);
    var l := DropLeadingEmpty(tail);
    if l == [] {
      assert Rebuild(tail) == [];
    } else {
      forall i | 0 <= i < |l|
        ensures '.' !in l[i]
      {
        assert l[i] == tail[|tail| - |l| + i];
      }
      SplitJoin(l, '.');
    }
  }

  // ---------------------------------------------------------------------
  // Traps and success
  // ---------------------------------------------------------------------

  /** The head of a longer keypath does not index an array out of its bounds (line 614). */
  predicate HeadInBounds(d: Dictionary, head: string)
  {
    ':' in head && HasArray(d, head) ==> 0 <= IndexOf(head) < |d[IndexName(head)].items|
  }

  /**
    The dictionary the head of a longer keypath leads to (lines 604-623).
    Unlike reading, a head containing ':' is always taken as `name:index`.
   */
  function HeadSlice(d: Dictionary, head: string): Option<Dictionary>
    requires HeadInBounds(d, head)
  {
    if ':' in head then
      if HasArray(d, head) && d[IndexName(head)].items[IndexOf(head)].Dict?
      then Some(d[IndexName(head)].items[IndexOf(head)].entries)
      else None
    else if head in d && d[head].Dict? then Some(d[head].entries)
    else None
  }

  /**
    Writing at a one-segment keypath does not trap: the value already there
    is not a dictionary (line 695 would call `setValue` on an immutable one),
    and an index is at most the array's length (NSMutableArray appends at the
    length and raises past it).
   */
  predicate LeafWritable(d: Dictionary, key: string)
  {
    && !(key in d && d[key].Dict?)
    && (':' in key && HasArray(d, key) ==> 0 <= IndexOf(key) <= |d[IndexName(key)].items|)
  }

  /** The write does not trap and returns a dictionary. */
  predicate WriteSucceeds(d: Dictionary, keys: seq<string>)
    ensures WriteSucceeds(d, keys) ==> Writable(d, keys)
    decreases |keys|, 1
  {
    |keys| > 0 &&
    if |keys| == 1 then
      LeafWritable(d, keys[0]) && (':' in keys[0] ==> HasArray(d, keys[0]))
    else
      && HeadInBounds(d, keys[0])
      && HeadSlice(d, keys[0]).Some?
      && WriteSucceeds(HeadSlice(d, keys[0]).value, SubSegments(keys[1..]))
  }

  /**
    The write does not trap. Below the head, a nil result of the recursive
    call fails `assert(newDict != nil)` (line 635), so only the head may be
    missing.
   */
  predicate Writable(d: Dictionary, keys: seq<string>)
    decreases |keys|, 0
  {
    |keys| > 0 &&
    if |keys| == 1 then
      LeafWritable(d, keys[0])
    else
      && HeadInBounds(d, keys[0])
      && (HeadSlice(d, keys[0]).Some? ==> WriteSucceeds(HeadSlice(d, keys[0]).value, SubSegments(keys[1..])))
  }

  /** The array after writing `x` at index `i`: replaced, or appended at the length. */
  function PutElement(items: seq<Value>, i: int, x: Value): (r: seq<Value>)
    requires 0 <= i <= |items|
    ensures |r| == if i == |items| then i + 1 else |items|
    ensures r[i] == x
    ensures forall j | 0 <= j < |items| && j != i :: r[j] == items[j]
  {
    if i == |items| then items + [x] else items[i := x]
  }

  // ---------------------------------------------------------------------
  // Writing
  // ---------------------------------------------------------------------

  /** `r` differs from `d` only in the entry under `key`, which it may add. */
  predicate OnlyEntryChanged(d: Dictionary, r: Dictionary, key: string)
  {
    && r.Keys == d.Keys + {key}
    && forall k | k in d && k != key :: r[k] == d[k]
  }

  /**
    `r` differs from `d` only in element `i` of the array under `name`, which
    keeps its other elements and may grow by that one element.
   */
  predicate OnlyElementChanged(d: Dictionary, r: Dictionary, name: string, i: int)
  {
    && name in d && d[name].Array?
    && r.Keys == d.Keys
    && (forall k | k in d && k != name :: r[k] == d[k])
    && r[name].Array?
    && 0 <= i < |r[name].items|
    && |r[name].items| == (if i == |d[name].items| then i + 1 else |d[name].items|)
    && (forall j | 0 <= j < |d[name].items| && j != i :: r[name].items[j] == d[name].items[j])
  }

  /** `r` differs from `d` only where the segment `key` points. */
  predicate ChangesOnlyAt(d: Dictionary, r: Dictionary, key: string)
  {
    if ':' in key then OnlyElementChanged(d, r, IndexName(key), IndexOf(key))
    else OnlyEntryChanged(d, r, key)
  }

  /** The value the segment `key` addresses in `r`, when it addresses one. */
  function AtSegment(r: Dictionary, key: string): Option<Value>
  {
    if ':' in key then
      if HasArray(r, key) && 0 <= IndexOf(key) < |r[IndexName(key)].items|
      then Some(r[IndexName(key)].items[IndexOf(key)])
      else None
    else if key in r then Some(r[key])
    else None
  }

  /**
    Storing `x` where the segment `key` points: under the key itself, or at
    the index of the array under the segment's name (`setValue(_, forKey:)`
    on the copy, or on a mutable copy of the array).
   */
  function PutAt(d: Dictionary, key: string, x: Value): (r: Dictionary)
    requires ':' in key ==> HasArray(d, key) && 0 <= IndexOf(key) <= |d[IndexName(key)].items|
    ensures ChangesOnlyAt(d, r, key)
    ensures AtSegment(r, key) == Some(x)
  {
    if ':' in key then
      var name := IndexName(key);
      d[name := Array(PutElement(d[name].items, IndexOf(key), x))]
    else d[key := x]
  }

  /**
    The dictionary after writing the string `v` at `keys`, or None when the
    head segment does not lead where the path needs.
   */
  function Set(d: Dictionary, keys: seq<string>, v: string): (r: Option<Dictionary>)
    requires Writable(d, keys)
    ensures r.Some? <==> WriteSucceeds(d, keys)
    ensures r.Some? ==> ChangesOnlyAt(d, r.value, keys[0])
    ensures r.Some? && |keys| == 1 ==> AtSegment(r.value, keys[0]) == Some(Str(v))
    // nil comes from the head alone: a missing or non-dictionary value under a
    // plain head segment, an indexed head segment without an array, or an
    // element selected by an indexed head that is not a dictionary
    ensures |keys| > 1 && ':' !in keys[0] && !(keys[0] in d && d[keys[0]].Dict?) ==> r.None?
    ensures ':' in keys[0] && !HasArray(d, keys[0]) ==> r.None?
    ensures (|keys| > 1 && ':' in keys[0] && HasArray(d, keys[0])
             && !d[IndexName(keys[0])].items[IndexOf(keys[0])].Dict?) ==> r.None?
    decreases |keys|
  {
    var head := keys[0];
    if |keys| == 1 then
      if ':' in head && !HasArray(d, head) then None
      else Some(PutAt(d, head, Str(v)))
    else
      match HeadSlice(d, head)
      case None => None
      case Some(slice) =>
        var newDict := Set(slice, SubSegments(keys[1..]), v).value;
        Some(PutAt(d, head, Dict(newDict)))
  }

  /** `setValueForKeyPath(d, path, v)`. */
  function SetValueForKeyPath(d: Dictionary, path: string, v: string): Option<Dictionary>
    requires Writable(d, Split(path, '.'))
  {
    Set(d, Split(path, '.'), v)
  }

  /** Writing at the dotted path of dot-free segments is writing at those segments. */
  lemma WriteJoinedPath(d: Dictionary, keys: seq<string>, v: string)
    requires |keys| > 0 && forall i | 0 <= i < |keys| :: '.' !in keys[i]
    requires Writable(d, keys)
    ensures Writable(d, Split(Join(keys, '.'), '.'))
    ensures SetValueForKeyPath(d, Join(keys, '.'), v) == Set(d, keys, v)
  {
    SplitJoin(keys, '.');
  }

  // ---------------------------------------------------------------------
  // Write, then read
  // ---------------------------------------------------------------------

  /**
    No segment strictly between the first and the last is empty, so the
    recursion sees the tail unchanged; a trailing empty segment survives the
    rebuild of lines 625-632 and is kept.
   */
  predicate NoEmptyInner(keys: seq<string>)
  {
    forall i | 1 <= i < |keys| - 1 :: keys[i] != ""
  }

  /** Under `NoEmptyInner`, the rebuilt sub-keypath has exactly the remaining segments. */
  lemma SubSegmentsKeepInner(keys: seq<string>)
    requires |keys| > 1 && NoEmptyInner(keys)
    ensures SubSegments(keys[1..]) == keys[1..]
    ensures NoEmptyInner(keys[1..])
  {
    var tail := keys[1..];
    if |tail| == 1 && tail[0] == "" {
      assert DropLeadingEmpty(tail) == [];
    } else {
      assert tail[0] == keys[1] != "";
      assert DropLeadingEmpty(tail) == tail;
    }
  }

  /**
    The scenario: writing "new" at `Targets:0.id` of `{"Targets":[{"id":"old"}]}`
    gives `{"Targets":[{"id":"new"}]}`, and the original still reads "old".
   */
  lemma WriteIndexedScenario()
    ensures var d := map["Targets" := Array([Dict(map["id" := Str("old")])])];
            && Writable(d, Split("Targets:0.id", '.'))
            && SetValueForKeyPath(d, "Targets:0.id", "new")
               == Some(map["Targets" := Array([Dict(map["id" := Str("new")])])])
            && ReadDefined(d, Split("Targets:0.id", '.'))
            && ValueForKeyPath(d, "Targets:0.id") == Some(Str("old"))
  {
    var d := map["Targets" := Array([Dict(map["id" := Str("old")])])];
    var segs := ["Targets:0", "id"];
    ParseIndexedPath();
    WriteThroughFirstElement("Targets:0", "id", "Targets", "old", "new");
    assert Split("Targets:0.id", '.') == segs;
    assert SetValueForKeyPath(d, "Targets:0.id", "new") == Set(d, segs, "new");
    assert ValueForKeyPath(d, "Targets:0.id") == Get(d, segs);
  }

  /** Writing and reading `name:0.key` in `{name: [{key: before}]}`. */
  lemma WriteThroughFirstElement(seg: string, key: string, name: string, before: string, after: string)
    requires ':' in seg && ':' !in key && key != ""
    requires IndexName(seg) == name && IndexOf(seg) == 0
    ensures var d := map[name := Array([Dict(map[key := Str(before)])])];
            && Writable(d, [seg, key])
            && Set(d, [seg, key], after) == Some(map[name := Array([Dict(map[key := Str(after)])])])
            && ReadDefined(d, [seg, key])
            && Get(d, [seg, key]) == Some(Str(before))
  {
    OverwritePlainKey(key, before, after);
    FirstElementSlice(seg, name, key, before);
    OverwriteThroughFirstElement(seg, name, key, before, after);
    ReadThroughFirstElement(seg, name, key, before);
  }

  lemma OverwritePlainKey(key: string, before: string, after: string)
    requires ':' !in key
    ensures Writable(map[key := Str(before)], [key])
    ensures Set(map[key := Str(before)], [key], after) == Some(map[key := Str(after)])
  {
    assert map[key := Str(before)][key := Str(after)] == map[key := Str(after)];
  }

  lemma FirstElementSlice(seg: string, name: string, key: string, before: string)
    requires ':' in seg && IndexName(seg) == name && IndexOf(seg) == 0
    ensures HeadInBounds(map[name := Array([Dict(map[key := Str(before)])])], seg)
    ensures HeadSlice(map[name := Array([Dict(map[key := Str(before)])])], seg)
         == Some(map[key := Str(before)])
  {
  }

  lemma OverwriteThroughFirstElement(seg: string, name: string, key: string, before: string, after: string)
    requires ':' in seg && ':' !in key && key != "" && IndexName(seg) == name && IndexOf(seg) == 0
    requires HeadInBounds(map[name := Array([Dict(map[key := Str(before)])])], seg)
    requires HeadSlice(map[name := Array([Dict(map[key := Str(before)])])], seg)
          == Some(map[key := Str(before)])
    requires Writable(map[key := Str(before)], [key])
    requires Set(map[key := Str(before)], [key], after) == Some(map[key := Str(after)])
    ensures Writable(map[name := Array([Dict(map[key := Str(before)])])], [seg, key])
    ensures Set(map[name := Array([Dict(map[key := Str(before)])])], [seg, key], after)
         == Some(map[name := Array([Dict(map[key := Str(after)])])])
  {
    var keys := [seg, key];
    assert keys[1..] == [key];
    assert SubSegments([key]) == [key];
    var d := map[name := Array([Dict(map[key := Str(before)])])];
    var x := Dict(map[key := Str(after)]);
    assert PutElement(d[name].items, 0, x) == [x];
    assert d[name := Array([x])] == map[name := Array([x])];
    assert PutAt(d, seg, x) == map[name := Array([x])];
  }

  lemma ReadThroughFirstElement(seg: string, name: string, key: string, before: string)
    requires ':' in seg && IndexName(seg) == name && IndexOf(seg) == 0
    ensures ReadDefined(map[name := Array([Dict(map[key := Str(before)])])], [seg, key])
    ensures Get(map[name := Array([Dict(map[key := Str(before)])])], [seg, key]) == Some(Str(before))
  {
    var keys := [seg, key];
    assert keys[1..] == [key];
    assert seg != name;
  }

  lemma ParseIndexedPath()
    ensures Split("Targets:0.id", '.') == ["Targets:0", "id"]
    ensures ':' in "Targets:0" && ':' !in "id"
    ensures IndexName("Targets:0") == "Targets" && IndexOf("Targets:0") == 0
  {
    SplitScenarioPath();
    SplitScenarioSegment();
    assert LeadingDigits("0") == "0";
    assert DigitsValue("0") == 0;
  }

  lemma SplitScenarioPath()
    ensures Split("Targets:0.id", '.') == ["Targets:0", "id"]
  {
    SplitOnce("Targets:0", '.', "id");
    assert "Targets:0" + ['.'] + "id" == "Targets:0.id";
  }

  lemma SplitScenarioSegment()
    ensures Split("Targets:0", ':') == ["Targets", "0"]
  {
    SplitOnce("Targets", ':', "0");
    assert "Targets" + [':'] + "0" == "Targets:0";
  }

  /**
    Reading through a segment that addresses `x`: a one-segment path reads
    `x`, a longer one continues inside `x`. A segment containing ':' must not
    also be a literal key.
   */
  lemma GetThroughSegment(r: Dictionary, keys: seq<string>, x: Value)
    requires |keys| > 0
    requires ':' in keys[0] ==> keys[0] !in r
    requires AtSegment(r, keys[0]) == Some(x)
    requires |keys| > 1 ==> x.Dict? && ReadDefined(x.entries, keys[1..])
    ensures ReadDefined(r, keys)
    ensures |keys| == 1 ==> Get(r, keys) == Some(x)
    ensures |keys| > 1 ==> Get(r, keys) == Get(x.entries, keys[1..])
  {
  }

  /** The head's slice inherits the absence of ':' in keys. */
  lemma SliceHasNoColonKeys(d: Dictionary, head: string)
    requires NoColonKeys(Dict(d))
    requires HeadInBounds(d, head) && HeadSlice(d, head).Some?
    ensures NoColonKeys(Dict(HeadSlice(d, head).value))
  {
    if ':' in head {
      assert NoColonKeys(d[IndexName(head)]);
      assert NoColonKeys(d[IndexName(head)].items[IndexOf(head)]);
    } else {
      assert NoColonKeys(d[head]);
    }
  }

  lemma SetThenGetLeaf(d: Dictionary, keys: seq<string>, v: string)
    requires |keys| == 1 && WriteSucceeds(d, keys)
    requires ':' in keys[0] ==> keys[0] !in d
    ensures Writable(d, keys)
    ensures ReadDefined(Set(d, keys, v).value, keys)
    ensures Get(Set(d, keys, v).value, keys) == Some(Str(v))
  {
    var r := Set(d, keys, v).value;
    assert ChangesOnlyAt(d, r, keys[0]);
    GetThroughSegment(r, keys, Str(v));
  }

  lemma SetThenGetStep(d: Dictionary, keys: seq<string>, v: string)
    requires |keys| > 1 && WriteSucceeds(d, keys)
    requires ':' in keys[0] ==> keys[0] !in d
    requires SubSegments(keys[1..]) == keys[1..]
    requires var slice := HeadSlice(d, keys[0]).value;
             && ReadDefined(Set(slice, keys[1..], v).value, keys[1..])
             && Get(Set(slice, keys[1..], v).value, keys[1..]) == Some(Str(v))
    ensures Writable(d, keys)
    ensures ReadDefined(Set(d, keys, v).value, keys)
    ensures Get(Set(d, keys, v).value, keys) == Some(Str(v))
  {
    var head := keys[0];
    var newDict := Set(HeadSlice(d, head).value, keys[1..], v).value;
    var r := Set(d, keys, v).value;
    assert r == PutAt(d, head, Dict(newDict));
    assert ChangesOnlyAt(d, r, head);
    GetThroughSegment(r, keys, Dict(newDict));
  }

  /**
    Why `NoEmptyInner` is needed: for the keypath `a..b` the rebuild of lines
    625-632 drops the empty middle segment, so the write stores at `a.b`
    while the read still looks under `a`, then `""`, then `b`.
   */
  lemma InteriorEmptySegmentDropped(a: string, b: string, x: string, y: string, v: string)
    requires ':' !in a && ':' !in b && b != ""
    ensures var d := map[a := Dict(map["" := Dict(map[b := Str(x)]), b := Str(y)])];
            var r := map[a := Dict(map["" := Dict(map[b := Str(x)]), b := Str(v)])];
            && Writable(d, [a, "", b])
            && Set(d, [a, "", b], v) == Some(r)
            && ReadDefined(r, [a, "", b])
            && Get(r, [a, "", b]) == Some(Str(x))
  {
    InteriorEmptyWrite(a, b, x, y, v);
    InteriorEmptyRead(a, b, x, v);
  }

  /** The write at `[a, "", b]` descends into `a` and stores at `b`. */
  lemma InteriorEmptyWrite(a: string, b: string, x: string, y: string, v: string)
    requires ':' !in a && ':' !in b && b != ""
    ensures var d := map[a := Dict(map["" := Dict(map[b := Str(x)]), b := Str(y)])];
            && Writable(d, [a, "", b])
            && Set(d, [a, "", b], v) == Some(map[a := Dict(map["" := Dict(map[b := Str(x)]), b := Str(v)])])
  {
    var inner := map["" := Dict(map[b := Str(x)]), b := Str(y)];
    var d := map[a := Dict(inner)];
    var keys := [a, "", b];
    assert keys[1..] == ["", b];
    assert DropLeadingEmpty(["", b]) == [b] by {
      assert ["", b][1..] == [b];
    }
    assert SubSegments(keys[1..]) == [b];
    assert HeadSlice(d, a) == Some(inner);
    assert Set(inner, [b], v) == Some(inner[b := Str(v)]);
    assert inner[b := Str(v)] == map["" := Dict(map[b := Str(x)]), b := Str(v)];
    assert PutAt(d, a, Dict(inner[b := Str(v)])) == map[a := Dict(inner[b := Str(v)])];
  }

  /** The read at `[a, "", b]` still looks under the empty key. */
  lemma InteriorEmptyRead(a: string, b: string, x: string, v: string)
    requires ':' !in a && ':' !in b && b != ""
    ensures var r := map[a := Dict(map["" := Dict(map[b := Str(x)]), b := Str(v)])];
            && ReadDefined(r, [a, "", b])
            && Get(r, [a, "", b]) == Some(Str(x))
  {
    var inner := map["" := Dict(map[b := Str(x)]), b := Str(v)];
    assert [a, "", b][1..] == ["", b];
    assert ["", b][1..] == [b];
    assert Get(map[b := Str(x)], [b]) == Some(Str(x));
    assert Get(inner, ["", b]) == Some(Str(x));
  }

  /**
    Reading back what was written: when no key of the tree contains ':' and
    no segment between the first and the last is empty, a successful write at `keys` is read back at
    `keys`.
   */
  lemma {:induction false} SetThenGet(d: Dictionary, keys: seq<string>, v: string)
    requires WriteSucceeds(d, keys)
    requires NoColonKeys(Dict(d))
    requires NoEmptyInner(keys)
    ensures Writable(d, keys)
    ensures ReadDefined(Set(d, keys, v).value, keys)
    ensures Get(Set(d, keys, v).value, keys) == Some(Str(v))
    decreases |keys|
  {
    assert ':' in keys[0] ==> keys[0] !in d;
    if |keys| == 1 {
      SetThenGetLeaf(d, keys, v);
    } else {
      SubSegmentsKeepInner(keys);
      SliceHasNoColonKeys(d, keys[0]);
      SetThenGet(HeadSlice(d, keys[0]).value, keys[1..], v);
      SetThenGetStep(d, keys, v);
    }
  }

  /** Storing at a segment the value already there gives the dictionary back. */
  lemma PutAtExisting(d: Dictionary, key: string, x: Value)
    requires ':' in key ==> HasArray(d, key) && 0 <= IndexOf(key) < |d[IndexName(key)].items|
    requires AtSegment(d, key) == Some(x)
    ensures PutAt(d, key, x) == d
  {
    if ':' in key {
      var name := IndexName(key);
      assert PutElement(d[name].items, IndexOf(key), x) == d[name].items;
    }
  }

  /**
    A successful read through a head segment, in a tree without ':' keys,
    goes through the dictionary the write would descend into.
   */
  lemma ReadThroughHead(d: Dictionary, keys: seq<string>)
    requires |keys| > 1 && ReadDefined(d, keys) && Get(d, keys).Some?
    requires NoColonKeys(Dict(d))
    ensures HeadInBounds(d, keys[0]) && HeadSlice(d, keys[0]).Some?
    ensures ':' in keys[0] ==> keys[0] !in d
    ensures AtSegment(d, keys[0]) == Some(Dict(HeadSlice(d, keys[0]).value))
    ensures ReadDefined(HeadSlice(d, keys[0]).value, keys[1..])
    ensures Get(HeadSlice(d, keys[0]).value, keys[1..]) == Get(d, keys)
    ensures NoColonKeys(Dict(HeadSlice(d, keys[0]).value))
  {
    var head := keys[0];
    if ':' in head {
      assert head !in d;
      assert NoColonKeys(d[IndexName(head)]);
      assert NoColonKeys(d[IndexName(head)].items[IndexOf(head)]);
    } else {
      assert NoColonKeys(d[head]);
    }
  }

  lemma SetSameValueStep(d: Dictionary, keys: seq<string>, v: string)
    requires |keys| > 1 && SubSegments(keys[1..]) == keys[1..]
    requires HeadInBounds(d, keys[0]) && HeadSlice(d, keys[0]).Some?
    requires ':' in keys[0] ==> keys[0] !in d
    requires AtSegment(d, keys[0]) == Some(Dict(HeadSlice(d, keys[0]).value))
    requires var slice := HeadSlice(d, keys[0]).value;
             Writable(slice, keys[1..]) && Set(slice, keys[1..], v) == Some(slice)
    ensures Writable(d, keys)
    ensures Set(d, keys, v) == Some(d)
  {
    var head := keys[0];
    var slice := HeadSlice(d, head).value;
    assert Set(d, keys, v) == Some(PutAt(d, head, Dict(slice)));
    PutAtExisting(d, head, Dict(slice));
  }

  /**
    Writing the string a keypath already reads is a no-op: the result is the
    input itself.
   */
  lemma {:induction false} SetSameValueIsIdentity(d: Dictionary, keys: seq<string>, v: string)
    requires ReadDefined(d, keys)
    requires Get(d, keys) == Some(Str(v))
    requires NoColonKeys(Dict(d))
    requires NoEmptyInner(keys)
    ensures Writable(d, keys)
    ensures Set(d, keys, v) == Some(d)
    decreases |keys|
  {
    var head := keys[0];
    if |keys| == 1 {
      if ':' in head {
        assert head !in d;
      }
      PutAtExisting(d, head, Str(v));
    } else {
      var tail := keys[1..];
      SubSegmentsKeepInner(keys);
      ReadThroughHead(d, keys);
      var slice := HeadSlice(d, head).value;
      SetSameValueIsIdentity(slice, tail, v);
      SetSameValueStep(d, keys, v);
    }
  }

}

=== FILE: loader.dfy ===
/**
  Loading the configuration (`init` of PreBuild/PreBuilder.swift, lines
  35-78) from already parsed files, and the default injection of
  `supplyDefaults` / `mergeInMissingFromDict` (lines 200-272). Reading and
  parsing the files and asking the process for its environment are left to
  the caller: the parsed dictionaries and the environment are parameters.
 */
module Loader {

  import opened Options
  import opened Values
  import opened Merging

  // ---------------------------------------------------------------------
  // The loop over several configuration files (lines 44-52)
  // ---------------------------------------------------------------------

  /** The next file can be taken in: if a `default` is already held, it can be merged under the file. */
  predicate StepDefined(input: Dictionary, file: Dictionary)
  {
    "default" in input ==> LayersMergeable(input["config" := Dict(file)])
  }

  /**
    One pass of the loop: the first file becomes `default`; every later one
    becomes `config`, is merged over `default` by `merge(input)`, and the
    result is copied back into `default`.
   */
  function FoldStep(input: Dictionary, file: Dictionary): Dictionary
    requires StepDefined(input, file)
  {
    if "default" !in input then input["default" := Dict(file)]
    else
      var merged := MergeLayers(input["config" := Dict(file)]);
      merged["default" := merged["config"]]
  }

  predicate FoldDefined(input: Dictionary, files: seq<Dictionary>)
    decreases |files|
  {
    files != [] ==>
      StepDefined(input, files[0]) && FoldDefined(FoldStep(input, files[0]), files[1..])
  }

  /** The whole loop, file by file from the first. */
  function FoldFiles(input: Dictionary, files: seq<Dictionary>): Dictionary
    requires FoldDefined(input, files)
    decreases |files|
  {
    if files == [] then input else FoldFiles(FoldStep(input, files[0]), files[1..])
  }

  /** Each later file is laid over everything before it. */
  predicate AccumulateDefined(acc: Dictionary, files: seq<Dictionary>)
    decreases |files|
  {
    files != [] ==>
      OverlayDefined(acc, files[0]) && AccumulateDefined(Overlay(acc, files[0]), files[1..])
  }

  /** Left-to-right layering: later files have higher precedence. */
  function Accumulate(acc: Dictionary, files: seq<Dictionary>): Dictionary
    requires AccumulateDefined(acc, files)
    decreases |files|
  {
    if files == [] then acc else Accumulate(Overlay(acc, files[0]), files[1..])
  }

  /** Adding one more file lays it over the layering of all the files before it. */
  lemma {:induction false} AccumulateSnoc(acc: Dictionary, files: seq<Dictionary>, last: Dictionary)
    requires AccumulateDefined(acc, files)
    requires OverlayDefined(Accumulate(acc, files), last)
    ensures AccumulateDefined(acc, files + [last])
    ensures Accumulate(acc, files + [last]) == Overlay(Accumulate(acc, files), last)
    decreases |files|
  {
    if files == [] {
      assert files + [last] == [last];
    } else {
      assert (files + [last])[0] == files[0];
      assert (files + [last])[1..] == files[1..] + [last];
      AccumulateSnoc(Overlay(acc, files[0]), files[1..], last);
    }
  }

  /**
    After the first file, the loop holds the accumulated layering twice,
    under `default` and under `config`.
   */
  lemma {:induction false} FoldIsAccumulate(acc: Dictionary, files: seq<Dictionary>)
    requires files != []
    requires FoldDefined(map["default" := Dict(acc)], files)
    ensures AccumulateDefined(acc, files)
    ensures FoldFiles(map["default" := Dict(acc)], files)
         == map["default" := Dict(Accumulate(acc, files)), "config" := Dict(Accumulate(acc, files))]
    decreases |files|
  {
    StepOverHeld(map["default" := Dict(acc)], acc, files[0]);
    FoldFromPair(Overlay(acc, files[0]), files[1..]);
  }

  /** A later file laid over the layering held under `default`: the result is held twice. */
  lemma StepOverHeld(input: Dictionary, acc: Dictionary, file: Dictionary)
    requires "default" in input && input["default"] == Dict(acc)
    requires input.Keys <= {"default", "config"}
    requires StepDefined(input, file)
    ensures OverlayDefined(acc, file)
    ensures FoldStep(input, file) == map["config" := Dict(Overlay(acc, file)), "default" := Dict(Overlay(acc, file))]
  {
    var next := Overlay(acc, file);
    var merged := MergeLayers(input["config" := Dict(file)]);
    assert merged.Keys == {"config"};
    assert merged == map["config" := Dict(next)];
  }

  lemma {:induction false} FoldFromPair(acc: Dictionary, files: seq<Dictionary>)
    requires FoldDefined(map["config" := Dict(acc), "default" := Dict(acc)], files)
    ensures AccumulateDefined(acc, files)
    ensures FoldFiles(map["config" := Dict(acc), "default" := Dict(acc)], files)
         == map["default" := Dict(Accumulate(acc, files)), "config" := Dict(Accumulate(acc, files))]
    decreases |files|
  {
    var input := map["config" := Dict(acc), "default" := Dict(acc)];
    if files == [] {
      assert input == map["default" := Dict(acc), "config" := Dict(acc)];
    } else {
      StepOverHeld(input, acc, files[0]);
      FoldFromPair(Overlay(acc, files[0]), files[1..]);
    }
  }

  // ---------------------------------------------------------------------
  // Layering (lines 35-72)
  // ---------------------------------------------------------------------

  /** The process environment as the tree stores it: a dictionary of strings. */
  function EnvironmentValue(env: map<string, string>): (r: Value)
    ensures r.Dict? && r.entries.Keys == env.Keys
    ensures forall k | k in env :: r.entries[k] == Str(env[k])
  {
    Dict(map k | k in env :: Str(env[k]))
  }

  /**
    The layers before promotion (lines 37-66). One file becomes `config`
    directly. Several are folded; then `config` takes the value of `default`
    (removed when there is none), and the attempt to remove `default`
    names the key "defaul", so `default` stays. The environment is stored
    under `environment`, and a fallback is merged in under everything.
   */
  function Layers(files: seq<Dictionary>, fallback: Option<Dictionary>, env: map<string, string>): Dictionary
    requires |files| != 1 ==> FoldDefined(map[], files)
    requires fallback.Some? ==> LayersMergeable(Unfallen(files, env)["default" := Dict(fallback.value)])
  {
    var input := Unfallen(files, env);
    if fallback.Some? then MergeLayers(input["default" := Dict(fallback.value)]) else input
  }

  /** The layers before the fallback is merged in (lines 37-61). */
  function Unfallen(files: seq<Dictionary>, env: map<string, string>): Dictionary
    requires |files| != 1 ==> FoldDefined(map[], files)
  {
    var input :=
      if |files| == 1 then map["config" := Dict(files[0])]
      else
        var folded := FoldFiles(map[], files);
        var withConfig := if "default" in folded then folded["config" := folded["default"]]
                          else folded - {"config"};
        withConfig - {"defaul"};
    input["environment" := EnvironmentValue(env)]
  }

  /** The promotion does not trap: `config` is a dictionary of dictionaries (line 69). */
  predicate Promotable(input: Dictionary)
  {
    "config" in input && input["config"].Dict? && AllDicts(input["config"].entries)
  }

  /** Lines 69-72: every entry of `config` moves to the top level and `config` goes. */
  function Promote(input: Dictionary): (r: Dictionary)
    requires Promotable(input)
    ensures r.Keys == (input.Keys + input["config"].entries.Keys) - {"config"}
    ensures forall k | k in input["config"].entries && k != "config" :: r[k] == input["config"].entries[k]
    ensures forall k | k in input && k !in input["config"].entries && k != "config" :: r[k] == input[k]
  {
    (input + input["config"].entries) - {"config"}
  }

  /** `init` up to the default injection: layered, promoted. */
  predicate LoadDefined(files: seq<Dictionary>, fallback: Option<Dictionary>, env: map<string, string>)
  {
    && (|files| != 1 ==> FoldDefined(map[], files))
    && (fallback.Some? ==> LayersMergeable(Unfallen(files, env)["default" := Dict(fallback.value)]))
    && Promotable(Layers(files, fallback, env))
  }

  function Load(files: seq<Dictionary>, fallback: Option<Dictionary>, env: map<string, string>): Dictionary
    requires LoadDefined(files, fallback, env)
  {
    Promote(Layers(files, fallback, env))
  }

  /**
    A single file without fallback: its entries are the top level, over the
    environment (and an entry named `config` is lost).
   */
  lemma LoadSingleFile(file: Dictionary, env: map<string, string>)
    requires LoadDefined([file], None, env)
    ensures Load([file], None, env)
         == (map["environment" := EnvironmentValue(env)] + file) - {"config"}
  {
    var input := map["config" := Dict(file), "environment" := EnvironmentValue(env)];
    assert Layers([file], None, env) == input;
    var r := Load([file], None, env);
    var e := (map["environment" := EnvironmentValue(env)] + file) - {"config"};
    assert r.Keys == e.Keys;
  }

  /**
    A single file with a fallback: the file is laid over the fallback
    (line 65), and that layering reaches the top level over the environment.
   */
  lemma LoadSingleFileWithFallback(file: Dictionary, fallback: Dictionary, env: map<string, string>)
    requires LoadDefined([file], Some(fallback), env)
    ensures OverlayDefined(fallback, file)
    ensures Load([file], Some(fallback), env)
         == (map["environment" := EnvironmentValue(env)] + Overlay(fallback, file)) - {"config"}
  {
    SingleFileLayers(file, fallback, env);
    PromoteConfigBesideEnvironment(Overlay(fallback, file), EnvironmentValue(env));
  }

  /** Lines 37-38 and 63-65 for one file: `config` is the file over the fallback. */
  lemma SingleFileLayers(file: Dictionary, fallback: Dictionary, env: map<string, string>)
    requires LayersMergeable(Unfallen([file], env)["default" := Dict(fallback)])
    ensures OverlayDefined(fallback, file)
    ensures Layers([file], Some(fallback), env)
         == map["config" := Dict(Overlay(fallback, file)), "environment" := EnvironmentValue(env)]
  {
    var input := Unfallen([file], env)["default" := Dict(fallback)];
    assert input["default"].entries == fallback && input["config"].entries == file;
    var r := MergeLayers(input);
    assert r.Keys == {"config", "environment"};
  }

  /** Promoting a `config` that sits beside `environment` alone. */
  lemma PromoteConfigBesideEnvironment(config: Dictionary, environment: Value)
    requires AllDicts(config)
    ensures var input := map["config" := Dict(config), "environment" := environment];
            && Promotable(input)
            && Promote(input) == (map["environment" := environment] + config) - {"config"}
  {
    var input := map["config" := Dict(config), "environment" := environment];
    var e := (map["environment" := environment] + config) - {"config"};
    assert Promote(input).Keys == e.Keys;
  }

  /**
    Several files without fallback: the accumulated layering is promoted to
    the top level, and, because of the "defaul" typo, it also stays under
    `default` unless a file itself has a `default` entry.
   */
  lemma LoadSeveralFiles(files: seq<Dictionary>, env: map<string, string>)
    requires |files| >= 2
    requires LoadDefined(files, None, env)
    ensures AccumulateDefined(files[0], files[1..])
    ensures var acc := Accumulate(files[0], files[1..]);
            var r := Load(files, None, env);
            && (forall k | k in acc && k != "config" :: k in r && r[k] == acc[k])
            && ("default" !in acc ==> "default" in r && r["default"] == Dict(acc))
            && ("environment" !in acc ==> "environment" in r && r["environment"] == EnvironmentValue(env))
  {
    FoldIsAccumulate(files[0], files[1..]);
    assert FoldFiles(map[], files) == FoldFiles(map["default" := Dict(files[0])], files[1..]);
  }

  /**
    With a fallback, the fallback is the base under the accumulated layering
    and the `default` entry disappears.
   */
  lemma LoadWithFallback(files: seq<Dictionary>, fallback: Dictionary, env: map<string, string>)
    requires |files| >= 2
    requires LoadDefined(files, Some(fallback), env)
    ensures AccumulateDefined(files[0], files[1..])
    ensures var acc := Accumulate(files[0], files[1..]);
            && OverlayDefined(fallback, acc)
            && var layered := Overlay(fallback, acc);
            var r := Load(files, Some(fallback), env);
            && (forall k | k in layered && k != "config" :: k in r && r[k] == layered[k])
            && ("default" !in layered ==> "default" !in r)
  {
    FoldIsAccumulate(files[0], files[1..]);
    assert FoldFiles(map[], files) == FoldFiles(map["default" := Dict(files[0])], files[1..]);
  }

  /** The overlay of the two-file scenario, on the merge rule alone. */
  lemma TwoFileOverlay()
    ensures var f1 := map["a" := Dict(map["x" := Int(1), "y" := Int(2)])];
            var f2 := map["a" := Dict(map["y" := Int(9), "z" := Int(3)])];
            && OverlayDefined(f1, f2)
            && Overlay(f1, f2) == map["a" := Dict(map["x" := Int(1), "y" := Int(9), "z" := Int(3)])]
  {
    var a1 := map["x" := Int(1), "y" := Int(2)];
    var a2 := map["y" := Int(9), "z" := Int(3)];
    assert !DeepOverwriter(Dict(a2)) by {
      assert "y" in a2 && !a2["y"].Dict?;
    }
    var m := Merge(a1, Dict(a2));
    assert m.Keys == {"x", "y", "z"};
    assert m == map["x" := Int(1), "y" := Int(9), "z" := Int(3)];
  }

  /** The loop over the two files of the scenario. */
  lemma TwoFileFold()
    ensures var f1 := map["a" := Dict(map["x" := Int(1), "y" := Int(2)])];
            var f2 := map["a" := Dict(map["y" := Int(9), "z" := Int(3)])];
            var acc := map["a" := Dict(map["x" := Int(1), "y" := Int(9), "z" := Int(3)])];
            && FoldDefined(map[], [f1, f2])
            && FoldFiles(map[], [f1, f2]) == map["config" := Dict(acc), "default" := Dict(acc)]
  {
    var f1 := map["a" := Dict(map["x" := Int(1), "y" := Int(2)])];
    var f2 := map["a" := Dict(map["y" := Int(9), "z" := Int(3)])];
    var acc := map["a" := Dict(map["x" := Int(1), "y" := Int(9), "z" := Int(3)])];
    TwoFileOverlay();
    var start := map["default" := Dict(f1)];
    assert FoldStep(map[], f1) == start;
    var pair := map["config" := Dict(acc), "default" := Dict(acc)];
    assert FoldStep(start, f2) == pair by {
      var merged := MergeLayers(start["config" := Dict(f2)]);
      assert merged == map["config" := Dict(acc)];
    }
    assert [f1, f2][1..] == [f2];
    assert [f2][1..] == [];
    assert FoldFiles(start, [f2]) == pair;
  }

  /**
    The two-file scenario: `{"a":{"x":1,"y":2}}` then `{"a":{"y":9,"z":3}}`
    gives `a = {"x":1,"y":9,"z":3}`.
   */
  lemma TwoFileScenario(env: map<string, string>)
    ensures var f1 := map["a" := Dict(map["x" := Int(1), "y" := Int(2)])];
            var f2 := map["a" := Dict(map["y" := Int(9), "z" := Int(3)])];
            && LoadDefined([f1, f2], None, env)
            && "a" in Load([f1, f2], None, env)
            && Load([f1, f2], None, env)["a"] == Dict(map["x" := Int(1), "y" := Int(9), "z" := Int(3)])
  {
    var f1 := map["a" := Dict(map["x" := Int(1), "y" := Int(2)])];
    var f2 := map["a" := Dict(map["y" := Int(9), "z" := Int(3)])];
    var acc := map["a" := Dict(map["x" := Int(1), "y" := Int(9), "z" := Int(3)])];
    TwoFileFold();
    LoadFromPair([f1, f2], acc, env);
    PromotedPairKey(acc, env, "a");
  }

  /** When the loop ends holding one layering twice, the load promotes it over the environment. */
  lemma LoadFromPair(files: seq<Dictionary>, acc: Dictionary, env: map<string, string>)
    requires |files| != 1 && FoldDefined(map[], files)
    requires FoldFiles(map[], files) == map["config" := Dict(acc), "default" := Dict(acc)]
    requires AllDicts(acc)
    ensures Promotable(map["config" := Dict(acc), "default" := Dict(acc), "environment" := EnvironmentValue(env)])
    ensures LoadDefined(files, None, env)
    ensures Load(files, None, env)
         == Promote(map["config" := Dict(acc), "default" := Dict(acc), "environment" := EnvironmentValue(env)])
  {
    var pair := map["config" := Dict(acc), "default" := Dict(acc)];
    assert pair["config" := pair["default"]] == pair;
    assert pair - {"defaul"} == pair;
  }

  /** An entry of the promoted layering comes from `acc`, over `default` and `environment`. */
  lemma PromotedPairKey(acc: Dictionary, env: map<string, string>, k: string)
    requires AllDicts(acc) && k in acc && k != "config"
    ensures var layered := map["config" := Dict(acc), "default" := Dict(acc), "environment" := EnvironmentValue(env)];
            && Promotable(layered)
            && k in Promote(layered) && Promote(layered)[k] == acc[k]
  {
    var layered := map["config" := Dict(acc), "default" := Dict(acc), "environment" := EnvironmentValue(env)];
    assert layered["config"].entries == acc;
  }

  // ---------------------------------------------------------------------
  // Default injection (lines 200-272)
  // ---------------------------------------------------------------------

  /** The log files used when the configuration names none (lines 203-212). */
  const DefaultLogFiles: Dictionary :=
    map["stdout" := Dict(map["path" := Str("/tmp/PreBuilder-stdout.log"), "append" := Bool(false)]),
        "stderr" := Dict(map["path" := Str("/tmp/PreBuilder-stderr.log"), "append" := Bool(false)])]

  /**
    `order` is an enumeration of the keys of `defaults`: the order in which
    the dictionary hands them out, which the source does not fix.
   */
  predicate Enumerates(order: seq<string>, defaults: Dictionary)
  {
    && (forall i | 0 <= i < |order| :: order[i] in defaults)
    && (forall k | k in defaults :: k in order)
    && (forall i, j | 0 <= i < j < |order| :: order[i] != order[j])
  }

  /**
    The fill does not trap: when a default is missing from the slice, the
    slice holds a dictionary under its own key, where the source looks for
    the place to put the default (the `assert(false)` at line 258).
   */
  predicate FillDefined(slice: Dictionary, key: string, defaults: Dictionary)
  {
    defaults.Keys <= slice.Keys || (key in slice && slice[key].Dict?)
  }

  /**
    The loop of lines 249-262. A missing default is written into a fresh
    copy of the ORIGINAL `slice[key]`, which then replaces `acc[key]`: each
    missing default undoes the previous one.
   */
  function FillFrom(slice: Dictionary, key: string, defaults: Dictionary, order: seq<string>, acc: Dictionary): Dictionary
    requires forall i | 0 <= i < |order| :: order[i] in defaults
    requires FillDefined(slice, key, defaults)
    decreases |order|
  {
    if order == [] then acc
    else if order[0] in slice then FillFrom(slice, key, defaults, order[1..], acc)
    else FillFrom(slice, key, defaults, order[1..], acc[key := Dict(slice[key].entries[order[0] := defaults[order[0]]])])
  }

  /** The last key of `order` that is missing from `slice`. */
  function LastMissing(order: seq<string>, slice: Dictionary): (r: Option<string>)
    ensures r.Some? <==> exists i | 0 <= i < |order| :: order[i] !in slice
    ensures r.Some? ==> r.value in order && r.value !in slice
    ensures r.Some? ==> exists i | 0 <= i < |order| :: order[i] == r.value &&
                          forall j | i < j < |order| :: order[j] in slice
  {
    if order == [] then None
    else if order[|order| - 1] !in slice then Some(order[|order| - 1])
    else
      var r := LastMissing(order[..|order| - 1], slice);
      assert forall i | 0 <= i < |order| - 1 :: order[..|order| - 1][i] == order[i];
      r
  }

  /**
    The loop has the effect of its last missing default alone: only that
    one ends up in `slice[key]`.
   */
  lemma {:induction false} FillFromIsLastMissing(slice: Dictionary, key: string, defaults: Dictionary, order: seq<string>, acc: Dictionary)
    requires forall i | 0 <= i < |order| :: order[i] in defaults
    requires FillDefined(slice, key, defaults)
    ensures var m := LastMissing(order, slice);
            FillFrom(slice, key, defaults, order, acc)
              == if m.None? then acc else acc[key := Dict(slice[key].entries[m.value := defaults[m.value]])]
    decreases |order|
  {
    if order != [] {
      var rest := order[1..];
      FillFromIsLastMissing(slice, key, defaults, rest,
        if order[0] in slice then acc else acc[key := Dict(slice[key].entries[order[0] := defaults[order[0]]])]);
      LastMissingCons(order, slice);
    }
  }

  lemma LastMissingCons(order: seq<string>, slice: Dictionary)
    requires order != []
    ensures LastMissing(order, slice)
         == if LastMissing(order[1..], slice).Some? then LastMissing(order[1..], slice)
            else if order[0] !in slice then Some(order[0]) else None
    decreases |order|
  {
    if |order| > 1 {
      var init := order[..|order| - 1];
      assert init[1..] == order[1..][..|order[1..]| - 1];
      LastMissingCons(init, slice);
    }
  }

  /** `mergeInMissingFromDict` (lines 240-272), with the enumeration order of `defaults` as a parameter. */
  function MergeInMissingFromDict(input: Dictionary, key: string, defaults: Dictionary, order: seq<string>): (r: Dictionary)
    requires Enumerates(order, defaults)
    requires key in input && input[key].Dict? ==> FillDefined(input[key].entries, key, defaults)
    ensures r.Keys == input.Keys + {key}
    ensures forall k | k in input && k != key :: r[k] == input[k]
    ensures !(key in input && input[key].Dict?) ==> r[key] == Dict(defaults)
    ensures key in input && input[key].Dict? ==>
              var slice := input[key].entries;
              && r[key].Dict?
              && r[key].entries.Keys == slice.Keys
              && (forall k | k in slice && k != key :: r[key].entries[k] == slice[k])
              && (defaults.Keys <= slice.Keys ==> r[key] == input[key])
  {
    if key in input && input[key].Dict? then
      var slice := input[key].entries;
      var filled := FillFrom(slice, key, defaults, order, slice);
      FillFromIsLastMissing(slice, key, defaults, order, slice);
      input[key := Dict(filled)]
    else
      input[key := Dict(defaults)]
  }

  /** `supplyDefaults` does not trap. */
  predicate SupplyDefined(input: Dictionary)
  {
    "PreBuilder" in input && input["PreBuilder"].Dict? ==>
      var pre := input["PreBuilder"].entries;
      "logs" in pre && pre["logs"].Dict? ==> FillDefined(pre["logs"].entries, "logs", DefaultLogFiles)
  }

  /**
    `supplyDefaults` (lines 200-221): a configuration without a `PreBuilder`
    dictionary gets one holding only the default logs; one without
    `PreBuilder.logs` dictionary gets the default logs; otherwise the logs
    named keep their values and no log key is added.
   */
  function SupplyDefaults(input: Dictionary, order: seq<string>): (r: Dictionary)
    requires Enumerates(order, DefaultLogFiles)
    requires SupplyDefined(input)
    ensures r.Keys == input.Keys + {"PreBuilder"}
    ensures forall k | k in input && k != "PreBuilder" :: r[k] == input[k]
    ensures r["PreBuilder"].Dict? && "logs" in r["PreBuilder"].entries && r["PreBuilder"].entries["logs"].Dict?
    ensures !("PreBuilder" in input && input["PreBuilder"].Dict?) ==>
              r["PreBuilder"] == Dict(map["logs" := Dict(DefaultLogFiles)])
    ensures "PreBuilder" in input && input["PreBuilder"].Dict? ==>
              var pre := input["PreBuilder"].entries;
              && r["PreBuilder"].entries.Keys == pre.Keys + {"logs"}
              && (forall k | k in pre && k != "logs" :: r["PreBuilder"].entries[k] == pre[k])
              && (!("logs" in pre && pre["logs"].Dict?) ==> r["PreBuilder"].entries["logs"] == Dict(DefaultLogFiles))
              && ("logs" in pre && pre["logs"].Dict? ==>
                    var logs := pre["logs"].entries;
                    var out := r["PreBuilder"].entries["logs"].entries;
                    && out.Keys == logs.Keys
                    && (forall k | k in logs && k != "logs" :: out[k] == logs[k]))
  {
    if "PreBuilder" in input && input["PreBuilder"].Dict? then
      input["PreBuilder" := Dict(MergeInMissingFromDict(input["PreBuilder"].entries, "logs", DefaultLogFiles, order))]
    else
      input["PreBuilder" := Dict(map["logs" := Dict(DefaultLogFiles)])]
  }

  /** Filling in the missing defaults a second time changes nothing. */
  lemma {:induction false} MergeInMissingIdempotent(input: Dictionary, key: string, defaults: Dictionary, order: seq<string>)
    requires Enumerates(order, defaults)
    requires key in input && input[key].Dict? ==> FillDefined(input[key].entries, key, defaults)
    ensures var once := MergeInMissingFromDict(input, key, defaults, order);
            && FillDefined(once[key].entries, key, defaults)
            && MergeInMissingFromDict(once, key, defaults, order) == once
  {
    var once := MergeInMissingFromDict(input, key, defaults, order);
    var slice := once[key].entries;
    if key in input && input[key].Dict? {
      var slice0 := input[key].entries;
      FillFromIsLastMissing(slice0, key, defaults, order, slice0);
      LastMissingSameKeys(order, slice0, slice);
      var m := LastMissing(order, slice0);
      if m.Some? {
        var inner := slice0[key].entries[m.value := defaults[m.value]];
        assert slice == slice0[key := Dict(inner)];
        FillFromIsLastMissing(slice, key, defaults, order, slice);
        assert slice[key].entries[m.value := defaults[m.value]] == inner;
        assert slice[key := Dict(inner)] == slice;
      } else {
        assert slice == slice0;
        FillFromIsLastMissing(slice, key, defaults, order, slice);
      }
    } else {
      assert slice == defaults;
      FillFromIsLastMissing(slice, key, defaults, order, slice);
      LastMissingNone(order, slice, defaults);
    }
    assert once[key := Dict(slice)] == once;
  }

  /** Supplying the defaults a second time changes nothing, whatever the enumeration order. */
  lemma SupplyDefaultsIdempotent(input: Dictionary, order: seq<string>)
    requires Enumerates(order, DefaultLogFiles)
    requires SupplyDefined(input)
    ensures SupplyDefined(SupplyDefaults(input, order))
    ensures SupplyDefaults(SupplyDefaults(input, order), order) == SupplyDefaults(input, order)
  {
    var once := SupplyDefaults(input, order);
    var pre := once["PreBuilder"].entries;
    if "PreBuilder" in input && input["PreBuilder"].Dict? {
      MergeInMissingIdempotent(input["PreBuilder"].entries, "logs", DefaultLogFiles, order);
    } else {
      MergeInMissingIdempotent(map[], "logs", DefaultLogFiles, order);
    }
    assert once["PreBuilder" := Dict(pre)] == once;
  }

  lemma LastMissingSameKeys(order: seq<string>, a: Dictionary, b: Dictionary)
    requires a.Keys == b.Keys
    ensures LastMissing(order, a) == LastMissing(order, b)
  {
  }

  lemma LastMissingNone(order: seq<string>, slice: Dictionary, defaults: Dictionary)
    requires forall i | 0 <= i < |order| :: order[i] in defaults
    requires defaults.Keys <= slice.Keys
    ensures LastMissing(order, slice) == None
  {
  }

  /**
    A configuration whose logs name only `stdout` has no `stderr` log added;
    the default goes into a nested `logs.logs` dictionary instead.
   */
  lemma MissingLogIsNotFilled(order: seq<string>, out: Value)
    requires Enumerates(order, DefaultLogFiles)
    ensures var input := map["PreBuilder" := Dict(map["logs" := Dict(map["stdout" := out, "logs" := Dict(map[])])])];
            && SupplyDefined(input)
            && var logs := SupplyDefaults(input, order)["PreBuilder"].entries["logs"].entries;
            && "stderr" !in logs
            && logs["stdout"] == out
            && logs["logs"] == Dict(map["stderr" := DefaultLogFiles["stderr"]])
  {
    var logs0 := map["stdout" := out, "logs" := Dict(map[])];
    FillFromIsLastMissing(logs0, "logs", DefaultLogFiles, order, logs0);
    assert "stderr" in order;
    var i :| 0 <= i < |order| && order[i] == "stderr";
    assert LastMissing(order, logs0) == Some("stderr");
  }

}

=== FILE: merge.dfy ===
/**
  The two `merge` functions of PreBuild/PreBuilder.swift (lines 274-318).
  `Merge(source, overwriter)` merges deeply only when EVERY value of the
  overwriter is a dictionary; an overwriter with any other value overwrites
  its keys shallowly, and a non-dictionary overwriter changes nothing.
  `MergeLayers(input)` lays the `config` layer over the `default` layer.
 */
module Merging {

  import opened Values

  /** `overwriter as? [String:[String:AnyObject]]` succeeds. */
  predicate DeepOverwriter(o: Value)
  {
    o.Dict? && AllDicts(o.entries)
  }

  /**
    The merge does not trap: where it recurses, the source's value is a
    dictionary (`as! NSDictionary` at line 283), all the way down.
   */
  predicate MergeDefined(source: Dictionary, o: Value)
    decreases o
  {
    DeepOverwriter(o) ==>
      forall k | k in o.entries && k in source ::
        source[k].Dict? && MergeDefined(source[k].entries, o.entries[k])
  }

  /** `merge(source, overwriter)`. */
  function Merge(source: Dictionary, o: Value): (r: Dictionary)
    requires MergeDefined(source, o)
    // keys only in the source are kept
    ensures r.Keys == source.Keys + (if o.Dict? then o.entries.Keys else {})
    ensures forall k | k in source && !(o.Dict? && k in o.entries) :: r[k] == source[k]
    // all overwriter values are dictionaries: new keys are added, shared keys merged recursively
    ensures DeepOverwriter(o) ==> forall k | k in o.entries && k !in source :: r[k] == o.entries[k]
    ensures DeepOverwriter(o) ==> forall k | k in o.entries && k in source ::
              r[k] == Dict(Merge(source[k].entries, o.entries[k]))
    // otherwise each overwriter entry replaces its key
    ensures o.Dict? && !DeepOverwriter(o) ==> forall k | k in o.entries :: r[k] == o.entries[k]
    // a non-dictionary overwriter leaves the source as it is
    ensures !o.Dict? ==> r == source
    decreases o
  {
    if DeepOverwriter(o) then
      map k | k in source.Keys + o.entries.Keys ::
        if k !in o.entries then source[k]
        else if k in source then Dict(Merge(source[k].entries, o.entries[k]))
        else o.entries[k]
    else if o.Dict? then
      source + o.entries
    else
      source
  }

  /** Every dictionary can be merged with itself. */
  lemma {:induction false} MergeSelfDefined(s: Dictionary)
    ensures MergeDefined(s, Dict(s))
    decreases Dict(s)
  {
    if DeepOverwriter(Dict(s)) {
      forall k | k in s
        ensures s[k].Dict? && MergeDefined(s[k].entries, s[k])
      {
        MergeSelfDefined(s[k].entries);
      }
    }
  }

  /** Merging a dictionary over itself gives it back (idempotence). */
  lemma {:induction false} MergeSelf(s: Dictionary)
    ensures MergeDefined(s, Dict(s))
    ensures Merge(s, Dict(s)) == s
    decreases Dict(s)
  {
    MergeSelfDefined(s);
    var r := Merge(s, Dict(s));
    if DeepOverwriter(Dict(s)) {
      forall k | k in s
        ensures r[k] == s[k]
      {
        MergeSelf(s[k].entries);
      }
    }
  }

  // ---------------------------------------------------------------------
  // Reference: the uniform "maps merge, everything else is replaced" policy
  // ---------------------------------------------------------------------

  /**
    The uniform deep merge: where both sides are dictionaries they merge key
    by key, and anywhere else the overlay wins.
   */
  function DeepMerge(base: Value, overlay: Value): (r: Value)
    decreases overlay
  {
    if base.Dict? && overlay.Dict? then
      Dict(map k | k in base.entries.Keys + overlay.entries.Keys ::
        if k !in overlay.entries then base.entries[k]
        else if k in base.entries then DeepMerge(base.entries[k], overlay.entries[k])
        else overlay.entries[k])
    else overlay
  }

  /**
    The two-level rule agrees with the uniform one: wherever the overwriter
    has a value that is not a dictionary, no key it shares with the source
    holds dictionaries on both sides.
   */
  predicate AgreesWithDeepMerge(source: Dictionary, o: Value)
    decreases o
  {
    if DeepOverwriter(o) then
      forall k | k in o.entries && k in source ::
        source[k].Dict? && AgreesWithDeepMerge(source[k].entries, o.entries[k])
    else if o.Dict? then
      forall k | k in o.entries && k in source :: !(source[k].Dict? && o.entries[k].Dict?)
    else
      true
  }

  /** Under that condition the source's merge is the uniform deep merge. */
  lemma {:induction false} MergeIsDeepMerge(source: Dictionary, o: Value)
    requires o.Dict?
    requires AgreesWithDeepMerge(source, o)
    ensures MergeDefined(source, o)
    ensures Dict(Merge(source, o)) == DeepMerge(Dict(source), o)
    decreases o
  {
    if DeepOverwriter(o) {
      forall k | k in o.entries && k in source
        ensures source[k].Dict? && MergeDefined(source[k].entries, o.entries[k])
        ensures Dict(Merge(source[k].entries, o.entries[k])) == DeepMerge(source[k], o.entries[k])
      {
        MergeIsDeepMerge(source[k].entries, o.entries[k]);
      }
    }
    var r := Merge(source, o);
    var e := DeepMerge(Dict(source), o).entries;
    assert r.Keys == e.Keys;
    forall k | k in r
      ensures r[k] == e[k]
    {
      if k !in o.entries {
        assert r[k] == source[k] == e[k];
      } else if k !in source {
        assert r[k] == o.entries[k] == e[k];
      } else if DeepOverwriter(o) {
        assert r[k] == Dict(Merge(source[k].entries, o.entries[k]));
        assert e[k] == DeepMerge(source[k], o.entries[k]);
      } else {
        assert r[k] == o.entries[k];
        assert !(source[k].Dict? && o.entries[k].Dict?);
        assert e[k] == DeepMerge(source[k], o.entries[k]) == o.entries[k];
      }
    }
  }

  /**
    Where the two rules part: one scalar beside a nested dictionary makes the
    whole overwriter shallow, so `a` loses `x`, which the uniform rule keeps.
   */
  lemma MixedOverwriterIsShallow()
    ensures var source := map["a" := Dict(map["x" := Int(1), "y" := Int(2)])];
            var o := Dict(map["a" := Dict(map["y" := Int(9)]), "b" := Int(1)]);
            && MergeDefined(source, o)
            && Merge(source, o) == map["a" := Dict(map["y" := Int(9)]), "b" := Int(1)]
            && DeepMerge(Dict(source), o)
               == Dict(map["a" := Dict(map["x" := Int(1), "y" := Int(9)]), "b" := Int(1)])
  {
    var inner := map["x" := Int(1), "y" := Int(2)];
    var over := map["y" := Int(9)];
    ScalarMakesShallow("a", "b", inner, over, Int(1));
    DeepMergeFlat(inner, over);
    assert inner + over == map["x" := Int(1), "y" := Int(9)];
  }

  /**
    A scalar beside a dictionary in the overwriter: the two-level rule
    replaces the dictionary, the uniform rule merges into it.
   */
  lemma ScalarMakesShallow(ka: string, kb: string, inner: Dictionary, over: Dictionary, scalar: Value)
    requires ka != kb && !scalar.Dict?
    ensures var o := Dict(map[ka := Dict(over), kb := scalar]);
            && MergeDefined(map[ka := Dict(inner)], o)
            && Merge(map[ka := Dict(inner)], o) == o.entries
            && DeepMerge(Dict(map[ka := Dict(inner)]), o)
               == Dict(map[ka := DeepMerge(Dict(inner), Dict(over)), kb := scalar])
  {
    var o := Dict(map[ka := Dict(over), kb := scalar]);
    assert !DeepOverwriter(o) by {
      assert !o.entries[kb].Dict?;
    }
    DeepMergeBeside(ka, kb, inner, over, scalar);
  }

  /** The uniform merge of a one-key dictionary under a two-key overlay. */
  lemma DeepMergeBeside(ka: string, kb: string, inner: Dictionary, over: Dictionary, scalar: Value)
    requires ka != kb
    ensures DeepMerge(Dict(map[ka := Dict(inner)]), Dict(map[ka := Dict(over), kb := scalar]))
         == Dict(map[ka := DeepMerge(Dict(inner), Dict(over)), kb := scalar])
  {
    var e := DeepMerge(Dict(map[ka := Dict(inner)]), Dict(map[ka := Dict(over), kb := scalar])).entries;
    assert e.Keys == {ka, kb};
  }

  /** Between flat dictionaries the uniform merge is the plain union, the overlay winning. */
  lemma DeepMergeFlat(base: Dictionary, overlay: Dictionary)
    requires forall k | k in base :: !base[k].Dict?
    ensures DeepMerge(Dict(base), Dict(overlay)) == Dict(base + overlay)
  {
    var e := DeepMerge(Dict(base), Dict(overlay)).entries;
    forall k | k in e ensures e[k] == (base + overlay)[k] {
      if k in overlay && k in base {
        assert DeepMerge(base[k], overlay[k]) == overlay[k];
      }
    }
  }

  // ---------------------------------------------------------------------
  // merge(input): the default and config layers
  // ---------------------------------------------------------------------

  /** Every key the top layer shares with the base can be merged (lines 306-309). */
  predicate OverlayDefined(base: Dictionary, top: Dictionary)
  {
    forall k | k in top && k in base :: base[k].Dict? && MergeDefined(base[k].entries, top[k])
  }

  /**
    The loop at lines 303-311: each top-level entry of the top layer is added
    when new and merged (two-argument merge) into the base's value otherwise.
   */
  function Overlay(base: Dictionary, top: Dictionary): (r: Dictionary)
    requires OverlayDefined(base, top)
    ensures r.Keys == base.Keys + top.Keys
    ensures forall k | k in base && k !in top :: r[k] == base[k]
    ensures forall k | k in top && k !in base :: r[k] == top[k]
    ensures forall k | k in top && k in base :: r[k] == Dict(Merge(base[k].entries, top[k]))
  {
    map k | k in base.Keys + top.Keys ::
      if k !in top then base[k]
      else if k in base then Dict(Merge(base[k].entries, top[k]))
      else top[k]
  }

  /**
    The top level of `merge(input)` is the deep branch of the two-argument
    merge, taken without asking whether every value is a dictionary.
   */
  lemma OverlayIsMerge(base: Dictionary, top: Dictionary)
    requires OverlayDefined(base, top)
    requires AllDicts(top)
    ensures MergeDefined(base, Dict(top))
    ensures Overlay(base, top) == Merge(base, Dict(top))
  {
  }

  /** `merge(input)` does not trap: both layers are present dictionaries and can be merged. */
  predicate LayersMergeable(input: Dictionary)
  {
    && "default" in input && input["default"].Dict?
    && "config" in input && input["config"].Dict?
    && OverlayDefined(input["default"].entries, input["config"].entries)
  }

  /** `merge(input)`: `default` is removed and `config` becomes the config layered over it. */
  function MergeLayers(input: Dictionary): (r: Dictionary)
    requires LayersMergeable(input)
    ensures r.Keys == input.Keys - {"default"}
    ensures r["config"] == Dict(Overlay(input["default"].entries, input["config"].entries))
    ensures forall k | k in input && k != "default" && k != "config" :: r[k] == input[k]
  {
    (input - {"default"})["config" := Dict(Overlay(input["default"].entries, input["config"].entries))]
  }

}

=== FILE: options.dfy ===
/** The optional result the Swift code returns as `T?`. */
module Options {

  datatype Option<+T> = None | Some(value: T)

}

=== FILE: provisioning.dfy ===
/**
  `checkProvisioingProfiles` of PreBuild/PreBuilder.swift (lines 701-733):
  every configuration of every target under `PreBuilder.Targets` names a
  provisioning profile; a value that is not a UUID is taken as the path of a
  profile file, whose UUID, when the file yields one, replaces the value.
  Copying the file into the profiles directory and reading its UUID are
  outside the model: the reading becomes the `resolve` parameter.
 */
module Provisioning {

  import opened Options
  import opened Values
  import opened StringExtensions
  import opened KeyPath
  import opened KeyPathWrite
  import opened Uuid

  /** A target and one of its configurations. */
  datatype Slot = Slot(target: string, configuration: string)

  /** A name that stays one segment when spliced into a keypath. */
  predicate PlainName(k: string)
  {
    k != [] && '.' !in k && ':' !in k
  }

  /** The dictionary at `PreBuilder.Targets` (line 706). */
  function Targets(d: Dictionary): Option<Dictionary>
  {
    if "PreBuilder" in d && d["PreBuilder"].Dict?
       && "Targets" in d["PreBuilder"].entries && d["PreBuilder"].entries["Targets"].Dict?
    then Some(d["PreBuilder"].entries["Targets"].entries)
    else None
  }

  /** `targetDict["Configurations"] as? NSDictionary` (line 708). */
  function Configurations(target: Value): Option<Dictionary>
  {
    if target.Dict? && "Configurations" in target.entries && target.entries["Configurations"].Dict?
    then Some(target.entries["Configurations"].entries)
    else None
  }

  /** The loops of lines 707-709 reach this slot. */
  predicate HasSlot(d: Dictionary, s: Slot)
  {
    && Targets(d).Some?
    && s.target in Targets(d).value
    && Configurations(Targets(d).value[s.target]).Some?
    && s.configuration in Configurations(Targets(d).value[s.target]).value
  }

  function ConfigOf(d: Dictionary, s: Slot): Value
    requires HasSlot(d, s)
  {
    Configurations(Targets(d).value[s.target]).value[s.configuration]
  }

  const ProfileKey: string := "Provisioning_Profile"

  /** The configuration holds its profile as a string. */
  predicate ProfileReadable(d: Dictionary, s: Slot)
    requires HasSlot(d, s)
  {
    ConfigOf(d, s).Dict? && ProfileKey in ConfigOf(d, s).entries && ConfigOf(d, s).entries[ProfileKey].Str?
  }

  /**
    The pass does not trap: every slot holds a dictionary with a string
    profile (line 711, and the force-unwrap at line 714 of a missing one).
    A target that is not a dictionary has no `Configurations` to find at
    line 708 and is skipped.
   */
  ghost predicate ProfilesReadable(d: Dictionary)
  {
    forall s | HasSlot(d, s) :: ProfileReadable(d, s)
  }

  function Profile(d: Dictionary, s: Slot): string
    requires HasSlot(d, s) && ProfileReadable(d, s)
  {
    ConfigOf(d, s).entries[ProfileKey].s
  }

  /** The keypath written at line 721, as segments. */
  function ProfileSegments(s: Slot): seq<string>
  {
    ["PreBuilder", "Targets", s.target, "Configurations", s.configuration, ProfileKey]
  }

  /** The keypath written at line 721. */
  function ProfilePath(s: Slot): string
  {
    "PreBuilder" + ['.'] + ("Targets" + ['.'] + (s.target + ['.'] + ("Configurations" + ['.'] + (s.configuration + ['.'] + ProfileKey))))
  }

  /** Six components joined by '.' split back into the six. */
  lemma SplitSix(a: string, b: string, c: string, d: string, e: string, f: string)
    requires '.' !in a && '.' !in b && '.' !in c && '.' !in d && '.' !in e && '.' !in f
    ensures Split(a + ['.'] + (b + ['.'] + (c + ['.'] + (d + ['.'] + (e + ['.'] + f)))), '.') == [a, b, c, d, e, f]
  {
    var parts := [a, b, c, d, e, f];
    JoinSix(a, b, c, d, e, f);
    assert forall i | 0 <= i < 6 :: '.' !in parts[i];
    SplitJoin(parts, '.');
  }

  lemma JoinSix(a: string, b: string, c: string, d: string, e: string, f: string)
    ensures Join([a, b, c, d, e, f], '.') == a + ['.'] + (b + ['.'] + (c + ['.'] + (d + ['.'] + (e + ['.'] + f))))
  {
    assert [a, b, c, d, e, f][1..] == [b, c, d, e, f];
    assert [b, c, d, e, f][1..] == [c, d, e, f];
    assert [c, d, e, f][1..] == [d, e, f];
    assert [d, e, f][1..] == [e, f];
    assert [e, f][1..] == [f];
    assert Join([e, f], '.') == e + ['.'] + f;
    assert Join([d, e, f], '.') == d + ['.'] + (e + ['.'] + f);
    assert Join([c, d, e, f], '.') == c + ['.'] + (d + ['.'] + (e + ['.'] + f));
    assert Join([b, c, d, e, f], '.') == b + ['.'] + (c + ['.'] + (d + ['.'] + (e + ['.'] + f)));
  }

  /** With plain names the keypath splits back into its six segments. */
  lemma ProfilePathSplits(s: Slot)
    requires PlainName(s.target) && PlainName(s.configuration)
    ensures Split(ProfilePath(s), '.') == ProfileSegments(s)
  {
    SplitSix("PreBuilder", "Targets", s.target, "Configurations", s.configuration, ProfileKey);
  }

  /** Reading the two segments `PreBuilder`, `Targets`. */
  lemma TargetsIsGet(d: Dictionary)
    ensures ReadDefined(d, ["PreBuilder", "Targets"])
    ensures var r := Get(d, ["PreBuilder", "Targets"]);
            Targets(d) == if r.Some? && r.value.Dict? then Some(r.value.entries) else None
  {
    assert ':' !in "PreBuilder" && ':' !in "Targets";
    GetTwoPlain(d, "PreBuilder", "Targets");
  }

  /** Reading two plain segments. */
  lemma GetTwoPlain(d: Dictionary, a: string, b: string)
    requires ':' !in a && ':' !in b
    ensures ReadDefined(d, [a, b])
    ensures Get(d, [a, b]) == if a in d && d[a].Dict? && b in d[a].entries then Some(d[a].entries[b]) else None
  {
    assert [a, b][1..] == [b];
  }

  lemma SplitTargetsPath()
    ensures Split("PreBuilder.Targets", '.') == ["PreBuilder", "Targets"]
  {
    SplitOnce("PreBuilder", '.', "Targets");
    assert "PreBuilder" + ['.'] + "Targets" == "PreBuilder.Targets";
  }

  /** `Targets` is what the keypath read of line 706 finds, when it finds a dictionary. */
  lemma TargetsIsKeyPathRead(d: Dictionary)
    ensures ReadDefined(d, Split("PreBuilder.Targets", '.'))
    ensures var r := ValueForKeyPath(d, "PreBuilder.Targets");
            Targets(d) == if r.Some? && r.value.Dict? then Some(r.value.entries) else None
  {
    SplitTargetsPath();
    TargetsIsGet(d);
  }

  // ---------------------------------------------------------------------
  // The profile update and the keypath write
  // ---------------------------------------------------------------------

  /** The tree with the profile of slot `s` set to `u`, everything else as it was. */
  function PutProfile(d: Dictionary, s: Slot, u: string): Dictionary
    requires HasSlot(d, s) && ConfigOf(d, s).Dict?
  {
    var pre := d["PreBuilder"].entries;
    var targets := pre["Targets"].entries;
    var target := targets[s.target].entries;
    var confs := target["Configurations"].entries;
    var conf := confs[s.configuration].entries;
    d["PreBuilder" := Dict(pre["Targets" := Dict(targets[s.target := Dict(target["Configurations" :=
      Dict(confs[s.configuration := Dict(conf[ProfileKey := Str(u)])])])])])]
  }

  /** One plain segment of a longer write: the rest is written inside the dictionary there. */
  lemma SetPlainStep(d: Dictionary, keys: seq<string>, v: string)
    requires |keys| > 1 && ':' !in keys[0]
    requires keys[0] in d && d[keys[0]].Dict?
    requires forall i | 1 <= i < |keys| :: keys[i] != ""
    requires WriteSucceeds(d[keys[0]].entries, keys[1..])
    ensures WriteSucceeds(d, keys)
    ensures Set(d, keys, v) == Some(d[keys[0] := Dict(Set(d[keys[0]].entries, keys[1..], v).value)])
  {
    assert SubSegments(keys[1..]) == keys[1..];
  }

  /** A plain last segment over a value that is not a dictionary. */
  lemma SetPlainLeaf(d: Dictionary, key: string, v: string)
    requires ':' !in key
    requires !(key in d && d[key].Dict?)
    ensures WriteSucceeds(d, [key])
    ensures Set(d, [key], v) == Some(d[key := Str(v)])
  {
  }

  /** Writing the profile keypath of a readable slot is `PutProfile`. */
  lemma SetIsPutProfile(d: Dictionary, s: Slot, u: string)
    requires HasSlot(d, s) && ProfileReadable(d, s)
    requires PlainName(s.target) && PlainName(s.configuration)
    ensures WriteSucceeds(d, ProfileSegments(s))
    ensures Set(d, ProfileSegments(s), u) == Some(PutProfile(d, s, u))
  {
    var keys := ProfileSegments(s);
    var pre := d["PreBuilder"].entries;
    var targets := pre["Targets"].entries;
    var target := targets[s.target].entries;
    var confs := target["Configurations"].entries;
    var conf := confs[s.configuration].entries;
    SetPlainLeaf(conf, ProfileKey, u);
    assert keys[5..] == [ProfileKey];
    SetPlainStep(confs, keys[4..], u);
    assert keys[4..][1..] == keys[5..];
    SetPlainStep(target, keys[3..], u);
    assert keys[3..][1..] == keys[4..];
    SetPlainStep(targets, keys[2..], u);
    assert keys[2..][1..] == keys[3..];
    SetPlainStep(pre, keys[1..], u);
    assert keys[1..][1..] == keys[2..];
    SetPlainStep(d, keys, u);
  }

  // ---------------------------------------------------------------------
  // Trees that differ only in their profiles
  // ---------------------------------------------------------------------

  function ConfigWith(s: Slot, conf: Value, m: map<Slot, string>): Value
  {
    if s in m && conf.Dict? then Dict(conf.entries[ProfileKey := Str(m[s])]) else conf
  }

  /** The configurations of target `t` with the profiles of `m` chosen. */
  function ConfigsWith(t: string, confs: Dictionary, m: map<Slot, string>): Dictionary
  {
    map c | c in confs :: ConfigWith(Slot(t, c), confs[c], m)
  }

  function TargetWith(t: string, target: Value, m: map<Slot, string>): Value
  {
    match Configurations(target)
    case None => target
    case Some(confs) =>
      Dict(target.entries["Configurations" := Dict(ConfigsWith(t, confs, m))])
  }

  /** Every target with the profiles of `m` chosen. */
  function TargetsWith(targets: Dictionary, m: map<Slot, string>): Dictionary
  {
    map t | t in targets :: TargetWith(t, targets[t], m)
  }

  /** The tree with the profile of every slot in `m` set to its string in `m`. */
  function WithProfiles(d: Dictionary, m: map<Slot, string>): (r: Dictionary)
    ensures r.Keys == d.Keys
    ensures forall k | k in d && k != "PreBuilder" :: r[k] == d[k]
  {
    match Targets(d)
    case None => d
    case Some(targets) =>
      var pre := d["PreBuilder"].entries;
      d["PreBuilder" := Dict(pre["Targets" := Dict(TargetsWith(targets, m))])]
  }

  lemma TargetWithEmpty(t: string, target: Value)
    ensures TargetWith(t, target, map[]) == target
  {
    if Configurations(target).Some? {
      var confs := Configurations(target).value;
      assert ConfigsWith(t, confs, map[]) == confs;
      assert target.entries["Configurations" := Dict(confs)] == target.entries;
    }
  }

  /** No profile chosen: the tree itself. */
  lemma WithNoProfiles(d: Dictionary)
    ensures WithProfiles(d, map[]) == d
  {
    if Targets(d).Some? {
      var targets := Targets(d).value;
      forall t | t in targets ensures TargetWith(t, targets[t], map[]) == targets[t] {
        TargetWithEmpty(t, targets[t]);
      }
      assert TargetsWith(targets, map[]) == targets;
      var pre := d["PreBuilder"].entries;
      assert pre["Targets" := Dict(targets)] == pre;
    }
  }

  lemma ConfigurationsOfTargetWith(t: string, target: Value, m: map<Slot, string>)
    ensures Configurations(TargetWith(t, target, m)).Some? <==> Configurations(target).Some?
    ensures Configurations(target).Some? ==>
              var confs := Configurations(target).value;
              var confs' := Configurations(TargetWith(t, target, m)).value;
              && confs'.Keys == confs.Keys
              && forall c | c in confs :: confs'[c] == ConfigWith(Slot(t, c), confs[c], m)
  {
  }

  /** The slots, and what each holds, after choosing the profiles in `m`. */
  lemma SlotsOfWithProfiles(d: Dictionary, m: map<Slot, string>, s: Slot)
    ensures Targets(WithProfiles(d, m)).Some? <==> Targets(d).Some?
    ensures Targets(d).Some? ==> Targets(WithProfiles(d, m)).value.Keys == Targets(d).value.Keys
    ensures HasSlot(WithProfiles(d, m), s) <==> HasSlot(d, s)
    ensures HasSlot(d, s) ==> ConfigOf(WithProfiles(d, m), s) == ConfigWith(s, ConfigOf(d, s), m)
  {
    if Targets(d).Some? && s.target in Targets(d).value {
      ConfigurationsOfTargetWith(s.target, Targets(d).value[s.target], m);
    }
  }

  lemma TargetsOfWithProfiles(d: Dictionary, m: map<Slot, string>)
    ensures Targets(WithProfiles(d, m)).Some? <==> Targets(d).Some?
    ensures Targets(d).Some? ==>
              var targets := Targets(d).value;
              var targets' := Targets(WithProfiles(d, m)).value;
              && targets'.Keys == targets.Keys
              && forall t | t in targets :: targets'[t] == TargetWith(t, targets[t], m)
  {
  }

  /** Choosing profiles keeps the pass able to run, and each slot reads its chosen profile. */
  lemma WithProfilesReadable(d: Dictionary, m: map<Slot, string>)
    requires ProfilesReadable(d)
    ensures ProfilesReadable(WithProfiles(d, m))
    ensures forall s | HasSlot(d, s) ::
              && HasSlot(WithProfiles(d, m), s)
              && ProfileReadable(WithProfiles(d, m), s)
              && Profile(WithProfiles(d, m), s) == if s in m then m[s] else Profile(d, s)
  {
    var r := WithProfiles(d, m);
    TargetsOfWithProfiles(d, m);
    forall s | HasSlot(r, s)
      ensures ProfileReadable(r, s)
    {
      SlotsOfWithProfiles(d, m, s);
    }
    forall s | HasSlot(d, s)
      ensures HasSlot(r, s) && ProfileReadable(r, s)
      ensures Profile(r, s) == if s in m then m[s] else Profile(d, s)
    {
      SlotsOfWithProfiles(d, m, s);
    }
  }

  /** The configurations of the slot's target, after putting the profile. */
  lemma PutProfileConfigurations(confs: Dictionary, t: string, c: string, m: map<Slot, string>, u: string)
    requires c in confs && confs[c].Dict?
    ensures var confsM := ConfigsWith(t, confs, m);
            confsM[c].Dict? &&
            confsM[c := Dict(confsM[c].entries[ProfileKey := Str(u)])]
              == ConfigsWith(t, confs, m[Slot(t, c) := u])
  {
    var s := Slot(t, c);
    var confsM := ConfigsWith(t, confs, m);
    var confsM' := ConfigsWith(t, confs, m[s := u]);
    PutProfileConfig(s, confs[c], m, u);
    var put := confsM[c := Dict(confsM[c].entries[ProfileKey := Str(u)])];
    forall c2 | c2 in confs && c2 != c ensures put[c2] == confsM'[c2] {
      assert Slot(t, c2) != s;
    }
    assert put == confsM';
  }

  /** The slot's own configuration, after putting the profile. */
  lemma PutProfileConfig(s: Slot, conf: Value, m: map<Slot, string>, u: string)
    requires conf.Dict?
    ensures ConfigWith(s, conf, m).Dict?
    ensures Dict(ConfigWith(s, conf, m).entries[ProfileKey := Str(u)]) == ConfigWith(s, conf, m[s := u])
  {
    if s in m {
      assert conf.entries[ProfileKey := Str(m[s])][ProfileKey := Str(u)] == conf.entries[ProfileKey := Str(u)];
    }
  }

  /** The slot's target, after putting the profile. */
  lemma PutProfileTarget(t: string, target: Value, c: string, m: map<Slot, string>, u: string)
    requires Configurations(target).Some?
    requires c in Configurations(target).value && Configurations(target).value[c].Dict?
    ensures var tm := TargetWith(t, target, m);
            && tm.Dict? && "Configurations" in tm.entries && tm.entries["Configurations"].Dict?
            && c in tm.entries["Configurations"].entries && tm.entries["Configurations"].entries[c].Dict?
            && var confsM := tm.entries["Configurations"].entries;
            Dict(tm.entries["Configurations" := Dict(confsM[c := Dict(confsM[c].entries[ProfileKey := Str(u)])])])
              == TargetWith(t, target, m[Slot(t, c) := u])
  {
    var confs := Configurations(target).value;
    PutProfileConfigurations(confs, t, c, m, u);
    var confsM := ConfigsWith(t, confs, m);
    var confsM' := ConfigsWith(t, confs, m[Slot(t, c) := u]);
    var targetM := target.entries["Configurations" := Dict(confsM)];
    assert targetM["Configurations" := Dict(confsM')] == target.entries["Configurations" := Dict(confsM')];
  }

  /** Putting one more profile is choosing it as well. */
  lemma PutProfileWithProfiles(d: Dictionary, m: map<Slot, string>, s: Slot, u: string)
    requires ProfilesReadable(d) && HasSlot(d, s)
    ensures HasSlot(WithProfiles(d, m), s) && ConfigOf(WithProfiles(d, m), s).Dict?
    ensures PutProfile(WithProfiles(d, m), s, u) == WithProfiles(d, m[s := u])
  {
    var m' := m[s := u];
    SlotsOfWithProfiles(d, m, s);
    var t, c := s.target, s.configuration;
    var targets := Targets(d).value;
    var pre := d["PreBuilder"].entries;
    assert ProfileReadable(d, s);
    PutProfileTarget(t, targets[t], c, m, u);
    PutProfileTargets(targets, s, m, u);
    var targetsM' := TargetsWith(targets, m');
    var preM := pre["Targets" := Dict(TargetsWith(targets, m))];
    assert preM["Targets" := Dict(targetsM')] == pre["Targets" := Dict(targetsM')];
  }

  /** Only the slot's own target changes when one more profile is chosen. */
  lemma PutProfileTargets(targets: Dictionary, s: Slot, m: map<Slot, string>, u: string)
    requires s.target in targets
    ensures TargetsWith(targets, m)[s.target := TargetWith(s.target, targets[s.target], m[s := u])]
         == TargetsWith(targets, m[s := u])
  {
    var put := TargetsWith(targets, m)[s.target := TargetWith(s.target, targets[s.target], m[s := u])];
    var targetsM' := TargetsWith(targets, m[s := u]);
    forall t2 | t2 in targets && t2 != s.target ensures put[t2] == targetsM'[t2] {
      TargetWithOtherSlot(t2, targets[t2], m, s, u);
    }
    assert put == targetsM';
  }

  /** A slot of another target does not touch this target. */
  lemma TargetWithOtherSlot(t: string, target: Value, m: map<Slot, string>, s: Slot, u: string)
    requires s.target != t
    ensures TargetWith(t, target, m) == TargetWith(t, target, m[s := u])
  {
    if Configurations(target).Some? {
      var confs := Configurations(target).value;
      assert ConfigsWith(t, confs, m) == ConfigsWith(t, confs, m[s := u]);
    }
  }

  /** Writing back the profile a slot already holds changes nothing. */
  lemma PutProfileSame(d: Dictionary, s: Slot)
    requires HasSlot(d, s) && ProfileReadable(d, s)
    ensures PutProfile(d, s, Profile(d, s)) == d
  {
    var pre := d["PreBuilder"].entries;
    var targets := pre["Targets"].entries;
    var target := targets[s.target].entries;
    var confs := target["Configurations"].entries;
    var conf := confs[s.configuration].entries;
    assert conf[ProfileKey := Str(Profile(d, s))] == conf;
    assert confs[s.configuration := Dict(conf)] == confs;
    assert target["Configurations" := Dict(confs)] == target;
    assert targets[s.target := Dict(target)] == targets;
    assert pre["Targets" := Dict(targets)] == pre;
  }

  // ---------------------------------------------------------------------
  // The pass
  // ---------------------------------------------------------------------

  /**
    The profile a slot ends with: a valid UUID stays, anything else is
    replaced by the UUID the resolver finds, if it finds one.
   */
  function Resolved(p: string, resolve: string -> Option<string>): string
  {
    if IsValidUUID(Some(p)) then p
    else match resolve(p)
      case Some(u) => u
      case None => p
  }

  /** The pass writes this profile back: it is not a valid UUID and the resolver finds one (lines 712-721). */
  predicate Rewritten(p: string, resolve: string -> Option<string>)
  {
    !IsValidUUID(Some(p)) && resolve(p).Some?
  }

  /**
    The keypath of line 721 addresses the slot it was built from, for every
    slot whose profile is written back: its names are plain.
   */
  ghost predicate WritesPlain(d: Dictionary, resolve: string -> Option<string>)
    requires ProfilesReadable(d)
  {
    forall s | HasSlot(d, s) && Rewritten(Profile(d, s), resolve) :: PlainName(s.target) && PlainName(s.configuration)
  }

  /** The slots of `d`, as a set. */
  function SlotsOf(d: Dictionary): (r: set<Slot>)
    ensures forall s :: s in r <==> HasSlot(d, s)
  {
    match Targets(d)
    case None => {}
    case Some(targets) =>
      set t, c | t in targets.Keys && Configurations(targets[t]).Some? && c in Configurations(targets[t]).value.Keys :: Slot(t, c)
  }

  /**
    The tree the pass produces: every slot's profile resolved, and nothing
    else changed.
   */
  function Normalized(d: Dictionary, resolve: string -> Option<string>): Dictionary
    requires ProfilesReadable(d)
  {
    WithProfiles(d, ResolvedProfiles(d, resolve))
  }

  /** The resolved profile of every slot. */
  function ResolvedProfiles(d: Dictionary, resolve: string -> Option<string>): (r: map<Slot, string>)
    requires ProfilesReadable(d)
    ensures forall s :: s in r <==> HasSlot(d, s)
    ensures forall s | s in r :: r[s] == Resolved(Profile(d, s), resolve)
  {
    map s | s in SlotsOf(d) :: Resolved(Profile(d, s), resolve)
  }

  /** `order` lists every slot of `d` once: the order the two loops visit them in. */
  ghost predicate EnumeratesSlots(order: seq<Slot>, d: Dictionary)
  {
    && (forall i | 0 <= i < |order| :: HasSlot(d, order[i]))
    && (forall s | HasSlot(d, s) :: s in order)
    && (forall i, j | 0 <= i < j < |order| :: order[i] != order[j])
  }

  /** The part of `m` for the slots in `done`. */
  function Restrict(m: map<Slot, string>, done: seq<Slot>): (r: map<Slot, string>)
    ensures forall s :: s in r <==> s in m && s in done
    ensures forall s | s in r :: r[s] == m[s]
  {
    map s | s in m && s in done :: m[s]
  }

  lemma RestrictSnoc(m: map<Slot, string>, done: seq<Slot>, s: Slot)
    requires s in m
    ensures Restrict(m, done + [s]) == Restrict(m, done)[s := m[s]]
  {
    assert forall x :: x in done + [s] <==> x in done || x == s;
  }

  lemma PrefixSnoc<T>(order: seq<T>, i: int)
    requires 0 <= i < |order|
    ensures order[..i + 1] == order[..i] + [order[i]]
  {
  }

  /** After choosing the profiles in `m`, a slot not in `m` still reads its own profile. */
  lemma WithProfilesSlot(d: Dictionary, m: map<Slot, string>, s: Slot)
    requires ProfilesReadable(d) && HasSlot(d, s)
    ensures HasSlot(WithProfiles(d, m), s) && ProfileReadable(WithProfiles(d, m), s)
    ensures Profile(WithProfiles(d, m), s) == if s in m then m[s] else Profile(d, s)
  {
    SlotsOfWithProfiles(d, m, s);
  }

  /**
    One visit of the loop: a valid profile, or one the resolver finds
    nothing for, stays; otherwise the keypath write succeeds and stores the
    UUID. Either way the slot now has its resolved profile.
   */
  lemma VisitOutcome(input: Dictionary, resolve: string -> Option<string>, m: map<Slot, string>, s: Slot, output: Dictionary)
    requires ProfilesReadable(input) && WritesPlain(input, resolve) && HasSlot(input, s)
    requires s !in m
    requires output == WithProfiles(input, m)
    ensures ProfileReadable(input, s)
    ensures var p := Profile(input, s);
            var next := WithProfiles(input, m[s := Resolved(p, resolve)]);
            && (IsValidUUID(Some(p)) || resolve(p).None? ==> output == next)
            && (!IsValidUUID(Some(p)) && resolve(p).Some? ==>
                  && Writable(output, Split(ProfilePath(s), '.'))
                  && SetValueForKeyPath(output, ProfilePath(s), resolve(p).value) == Some(next))
  {
    WithProfilesSlot(input, m, s);
    var p := Profile(input, s);
    PutProfileWithProfiles(input, m, s, Resolved(p, resolve));
    if IsValidUUID(Some(p)) || resolve(p).None? {
      PutProfileSame(output, s);
    } else {
      assert Rewritten(p, resolve);
      SetIsPutProfile(output, s, resolve(p).value);
      ProfilePathSplits(s);
    }
  }

  /** Having visited every slot, every slot is resolved. */
  lemma VisitedAll(input: Dictionary, resolve: string -> Option<string>, order: seq<Slot>)
    requires ProfilesReadable(input)
    requires EnumeratesSlots(order, input)
    ensures Restrict(ResolvedProfiles(input, resolve), order[..|order|]) == ResolvedProfiles(input, resolve)
  {
    var all := ResolvedProfiles(input, resolve);
    assert order[..|order|] == order;
    assert Restrict(all, order) == all;
  }

  /** Visiting `order[i]` extends the profiles chosen so far by that slot's. */
  lemma RestrictStep(input: Dictionary, resolve: string -> Option<string>, order: seq<Slot>, i: int, m: map<Slot, string>)
    requires ProfilesReadable(input)
    requires EnumeratesSlots(order, input)
    requires 0 <= i < |order|
    requires m == Restrict(ResolvedProfiles(input, resolve), order[..i])
    ensures HasSlot(input, order[i]) && order[i] !in m
    ensures ProfileReadable(input, order[i])
    ensures m[order[i] := Resolved(Profile(input, order[i]), resolve)]
         == Restrict(ResolvedProfiles(input, resolve), order[..i + 1])
  {
    var all := ResolvedProfiles(input, resolve);
    assert order[i] !in order[..i];
    PrefixSnoc(order, i);
    RestrictSnoc(all, order[..i], order[i]);
  }

  /**
    The body of `checkProvisioingProfiles`'s inner loop for one slot: a
    profile that is not a valid UUID is resolved, and a UUID found is written
    at the slot's keypath through `setValueForKeyPath`.
   */
  method VisitSlot(input: Dictionary, resolve: string -> Option<string>, ghost m: map<Slot, string>, s: Slot, output: Dictionary)
    returns (next: Dictionary)
    requires ProfilesReadable(input) && WritesPlain(input, resolve) && HasSlot(input, s)
    requires s !in m
    requires output == WithProfiles(input, m)
    ensures ProfileReadable(input, s)
    ensures next == WithProfiles(input, m[s := Resolved(Profile(input, s), resolve)])
  {
    VisitOutcome(input, resolve, m, s, output);
    next := output;
    var profile := Profile(input, s);
    if !IsValidUUID(Some(profile)) {
      var uuid := resolve(profile);
      if uuid.Some? {
        var newOutput := SetValueForKeyPath(output, ProfilePath(s), uuid.value);
        if newOutput.Some? {
          next := newOutput.value;
        }
      }
    }
  }

  /**
    `checkProvisioingProfiles`: the slots are visited in `order`, and each
    ends with its resolved profile.
   */
  method CheckProvisioningProfiles(input: Dictionary, order: seq<Slot>, resolve: string -> Option<string>)
    returns (output: Dictionary)
    requires ProfilesReadable(input) && WritesPlain(input, resolve)
    requires EnumeratesSlots(order, input)
    ensures output == Normalized(input, resolve)
  {
    output := input;
    ghost var all := ResolvedProfiles(input, resolve);
    ghost var m: map<Slot, string> := map[];
    WithNoProfiles(input);
    assert Restrict(all, order[..0]) == m;
    var i := 0;
    while i < |order|
      invariant 0 <= i <= |order|
      invariant m == Restrict(all, order[..i])
      invariant output == WithProfiles(input, m)
    {
      var s := order[i];
      RestrictStep(input, resolve, order, i, m);
      output := VisitSlot(input, resolve, m, s, output);
      m := m[s := Resolved(Profile(input, s), resolve)];
      i := i + 1;
    }
    VisitedAll(input, resolve, order);
  }

  // ---------------------------------------------------------------------
  // What the pass promises
  // ---------------------------------------------------------------------

  /** Every slot ends with its resolved profile; the slots are the same. */
  lemma NormalizedProfiles(d: Dictionary, resolve: string -> Option<string>, s: Slot)
    requires ProfilesReadable(d)
    ensures ProfilesReadable(Normalized(d, resolve))
    ensures HasSlot(Normalized(d, resolve), s) <==> HasSlot(d, s)
    ensures HasSlot(d, s) ==> Profile(Normalized(d, resolve), s) == Resolved(Profile(d, s), resolve)
  {
    var m := ResolvedProfiles(d, resolve);
    WithProfilesReadable(d, m);
    SlotsOfWithProfiles(d, m, s);
  }

  /** The profiles a pass that changes nothing chooses. */
  ghost predicate KeepsProfiles(d: Dictionary, m: map<Slot, string>)
    requires ProfilesReadable(d)
  {
    forall s | s in m :: HasSlot(d, s) && m[s] == Profile(d, s)
  }

  lemma TargetKeepsProfiles(d: Dictionary, m: map<Slot, string>, t: string)
    requires ProfilesReadable(d) && KeepsProfiles(d, m)
    requires Targets(d).Some? && t in Targets(d).value
    ensures TargetWith(t, Targets(d).value[t], m) == Targets(d).value[t]
  {
    var target := Targets(d).value[t];
    if Configurations(target).Some? {
      var confs := Configurations(target).value;
      forall c | c in confs ensures ConfigWith(Slot(t, c), confs[c], m) == confs[c] {
        assert HasSlot(d, Slot(t, c));
        if Slot(t, c) in m {
          assert confs[c].entries[ProfileKey := Str(Profile(d, Slot(t, c)))] == confs[c].entries;
        }
      }
      assert ConfigsWith(t, confs, m) == confs;
      assert target.entries["Configurations" := Dict(confs)] == target.entries;
    }
  }

  /** Choosing for each slot the profile it holds gives the tree back. */
  lemma WithKeptProfiles(d: Dictionary, m: map<Slot, string>)
    requires ProfilesReadable(d) && KeepsProfiles(d, m)
    ensures WithProfiles(d, m) == d
  {
    if Targets(d).Some? {
      var targets := Targets(d).value;
      forall t | t in targets ensures TargetWith(t, targets[t], m) == targets[t] {
        TargetKeepsProfiles(d, m, t);
      }
      assert TargetsWith(targets, m) == targets;
      var pre := d["PreBuilder"].entries;
      assert pre["Targets" := Dict(targets)] == pre;
    }
  }

  /**
    When no profile changes (all are valid UUIDs, or the resolver finds
    nothing for the others), the tree comes back as it was.
   */
  lemma NormalizedUnchanged(d: Dictionary, resolve: string -> Option<string>)
    requires ProfilesReadable(d)
    requires forall s | HasSlot(d, s) :: IsValidUUID(Some(Profile(d, s))) || resolve(Profile(d, s)).None?
    ensures Normalized(d, resolve) == d
  {
    var m := ResolvedProfiles(d, resolve);
    assert KeepsProfiles(d, m);
    WithKeptProfiles(d, m);
  }

  /** A target that is not a dictionary is skipped: the pass runs and changes nothing. */
  lemma NonDictionaryTargetSkipped(target: Value, resolve: string -> Option<string>)
    requires !target.Dict?
    ensures var d := map["PreBuilder" := Dict(map["Targets" := Dict(map["app" := target])])];
            && ProfilesReadable(d) && WritesPlain(d, resolve)
            && Normalized(d, resolve) == d
  {
    var d := map["PreBuilder" := Dict(map["Targets" := Dict(map["app" := target])])];
    assert Targets(d) == Some(map["app" := target]);
    assert forall s :: !HasSlot(d, s);
    NormalizedUnchanged(d, resolve);
  }

  /**
    A profile that is a valid UUID, or whose path the resolver turns into
    one, ends valid.
   */
  lemma NormalizedProfileValid(d: Dictionary, resolve: string -> Option<string>, s: Slot)
    requires ProfilesReadable(d) && HasSlot(d, s)
    requires var p := Profile(d, s); IsValidUUID(Some(p)) || IsValidUUID(resolve(p))
    ensures ProfilesReadable(Normalized(d, resolve))
    ensures HasSlot(Normalized(d, resolve), s)
    ensures IsValidUUID(Some(Profile(Normalized(d, resolve), s)))
  {
    NormalizedProfiles(d, resolve, s);
    var p := Profile(d, s);
    var q := Profile(Normalized(d, resolve), s);
    assert q == Resolved(p, resolve);
    if IsValidUUID(Some(p)) {
      assert q == p;
    } else {
      assert Some(q) == resolve(p);
    }
  }

}

=== FILE: strings.dfy ===
/**
  The `String` extensions of PreBuild/String-Extensions.swift, over `seq<char>`
  (one element per character), together with the one-character split the
  keypath code uses (`componentsSeparatedByString` / `splitByCharacter`).
  Every Swift trap of `advancedBy` past either end, or of an NSRange outside
  the string, becomes a precondition.
 */
module StringExtensions {

  import opened Options

  /** `t` occurs contiguously in `s` starting at position `i`. */
  predicate OccursAt(s: string, t: string, i: nat)
  {
    i + |t| <= |s| && s[i..i + |t|] == t
  }

  /**
    The first position at or after `from` where `t` occurs in `s`
    (the `location` of `rangeOfString`, searching left to right).
   */
  function FirstOccurrence(s: string, t: string, from: nat): (r: Option<nat>)
    ensures r.Some? ==> from <= r.value && OccursAt(s, t, r.value)
    ensures r.Some? ==> forall j | from <= j < r.value :: !OccursAt(s, t, j)
    ensures r.None? ==> forall j | from <= j :: !OccursAt(s, t, j)
    decreases |s| - from
  {
    if from + |t| > |s| then None
    else if s[from..from + |t|] == t then Some(from)
    else FirstOccurrence(s, t, from + 1)
  }

  /**
    `containsString`: `rangeOfString(t).location != NSNotFound`. NSString
    reports an empty needle as not found, so the empty string is contained
    in nothing.
   */
  function ContainsString(s: string, t: string): (r: bool)
    ensures r <==> t != [] && exists i :: OccursAt(s, t, i)
  {
    t != [] && FirstOccurrence(s, t, 0).Some?
  }

  /** Containing a one-character string is containing that character. */
  lemma ContainsSingleChar(s: string, c: char)
    ensures ContainsString(s, [c]) <==> c in s
  {
    if c in s {
      var i :| 0 <= i < |s| && s[i] == c;
      assert OccursAt(s, [c], i);
    }
    if ContainsString(s, [c]) {
      var i: nat :| OccursAt(s, [c], i);
      assert s[i..i + 1][0] == s[i];
    }
  }

  /** `substringToIndex`: the first `i` characters. */
  function SubstringToIndex(s: string, i: int): (r: string)
    requires 0 <= i <= |s|
    ensures |r| == i
    ensures forall k | 0 <= k < i :: r[k] == s[k]
  {
    s[..i]
  }

  /** `substringFromIndex`: the characters from position `i` to the end. */
  function SubstringFromIndex(s: string, i: int): (r: string)
    requires 0 <= i <= |s|
    ensures |r| == |s| - i
    ensures forall k | 0 <= k < |r| :: r[k] == s[i + k]
  {
    s[i..]
  }

  /** Cutting a string at any position and gluing the halves gives it back. */
  lemma SubstringsReassemble(s: string, i: int)
    requires 0 <= i <= |s|
    ensures SubstringToIndex(s, i) + SubstringFromIndex(s, i) == s
  {
    var a, b := SubstringToIndex(s, i), SubstringFromIndex(s, i);
    assert forall k | 0 <= k < |s| :: (a + b)[k] == s[k] by {
      forall k | 0 <= k < |s|
        ensures (a + b)[k] == s[k]
      {
        if k < i {
          assert (a + b)[k] == a[k];
        } else {
          assert (a + b)[k] == b[k - i];
        }
      }
    }
  }

  /** The unit test's example: the first five characters of "Hello World". */
  lemma SubstringToIndexHello()
    ensures SubstringToIndex("Hello World", 5) == "Hello"
  {
  }

  /**
    `substringWithRange(a..<b)` on integer positions. A Swift `Range` needs
    `a <= b`, and both ends must lie inside the string.
   */
  function SubstringWithRange(s: string, a: int, b: int): (r: string)
    requires 0 <= a <= b <= |s|
    ensures |r| == b - a
    ensures forall k | 0 <= k < |r| :: r[k] == s[a + k]
  {
    s[a..b]
  }

  /** `s[i]`: the single character the one-character range at `i` holds. */
  function CharAt(s: string, i: int): (r: char)
    requires 0 <= i < |s|
    ensures SubstringWithRange(s, i, i + 1) == [r]
  {
    SubstringWithRange(s, i, i + 1)[0]
  }

  /** `s[a..<b]`: the range subscript is `substringWithRange`. */
  function Slice(s: string, a: int, b: int): (r: string)
    requires 0 <= a <= b <= |s|
    ensures |r| == b - a
    ensures forall k | 0 <= k < b - a :: r[k] == s[a + k]
  {
    SubstringWithRange(s, a, b)
  }

  /** Two adjacent ranges together are the range that spans both. */
  lemma SliceAdjacent(s: string, a: int, m: int, b: int)
    requires 0 <= a <= m <= b <= |s|
    ensures Slice(s, a, m) + Slice(s, m, b) == Slice(s, a, b)
  {
    var left, right, whole := Slice(s, a, m), Slice(s, m, b), Slice(s, a, b);
    forall k | 0 <= k < b - a ensures (left + right)[k] == whole[k] {
      if k < m - a {
        assert (left + right)[k] == left[k] == s[a + k];
      } else {
        assert (left + right)[k] == right[k - (m - a)] == s[a + k];
      }
    }
  }

  /**
    `replaceCharactersInRange(a..<b, w)`: NSMutableString replaces the
    `b - a` characters at `a` by `w` (and raises for a range past the end).
   */
  function ReplaceCharactersInRange(s: string, a: int, b: int, w: string): (r: string)
    requires 0 <= a <= b <= |s|
    ensures |r| == |s| - (b - a) + |w|
    ensures forall k | 0 <= k < a :: r[k] == s[k]
    ensures forall k | 0 <= k < |w| :: r[a + k] == w[k]
    ensures forall k | b <= k < |s| :: r[a + |w| + (k - b)] == s[k]
  {
    s[..a] + w + s[b..]
  }

  /** Replacing a range is keeping what precedes it, `w`, and what follows it. */
  lemma ReplaceIsPrefixInsertSuffix(s: string, a: int, b: int, w: string)
    requires 0 <= a <= b <= |s|
    ensures ReplaceCharactersInRange(s, a, b, w)
         == SubstringToIndex(s, a) + w + SubstringFromIndex(s, b)
  {
    var r := ReplaceCharactersInRange(s, a, b, w);
    var q := SubstringToIndex(s, a) + w + SubstringFromIndex(s, b);
    assert |r| == |q|;
    forall k | 0 <= k < |r|
      ensures r[k] == q[k]
    {
      if k < a {
      } else if k < a + |w| {
        assert r[a + (k - a)] == w[k - a];
      } else {
        assert r[a + |w| + (k - a - |w| + b - b)] == s[k - a - |w| + b];
      }
    }
  }

  /**
    The components of `s` between occurrences of the separator `c`, as
    `componentsSeparatedByString` returns them: there is always at least one
    (the empty string gives `[""]`), and two separators in a row give an empty
    component.
   */
  function Split(s: string, c: char): (parts: seq<string>)
    ensures |parts| >= 1
    ensures forall i | 0 <= i < |parts| :: c !in parts[i]
    ensures (|parts| > 1) <==> c in s
    ensures Join(parts, c) == s
    decreases |s|
  {
    if s == [] then [[]]
    else
      var rest := Split(s[1..], c);
      if s[0] == c then
        assert ([[]] + rest)[1..] == rest;
        [[]] + rest
      else
        var parts := [[s[0]] + rest[0]] + rest[1..];
        assert parts[1..] == rest[1..];
        parts
  }

  /** The components glued back together with the separator between them. */
  function Join(parts: seq<string>, c: char): string
    decreases |parts|
  {
    if |parts| == 0 then []
    else if |parts| == 1 then parts[0]
    else parts[0] + [c] + Join(parts[1..], c)
  }

  /** A string without the separator is a single component. */
  lemma {:induction false} SplitWithoutSeparator(s: string, c: char)
    requires c !in s
    ensures Split(s, c) == [s]
    decreases |s|
  {
    if s != [] {
      SplitWithoutSeparator(s[1..], c);
    }
  }

  /** The first separator ends the first component. */
  lemma {:induction false} SplitAtFirstSeparator(a: string, c: char, b: string)
    requires c !in a
    ensures Split(a + [c] + b, c) == [a] + Split(b, c)
    decreases |a|
  {
    var s := a + [c] + b;
    if a == [] {
      assert s[0] == c && s[1..] == b;
    } else {
      assert s[0] == a[0];
      assert s[1..] == a[1..] + [c] + b;
      SplitAtFirstSeparator(a[1..], c, b);
      assert [a[0]] + a[1..] == a;
    }
  }

  /** A string with exactly one separator splits into the text around it. */
  lemma SplitOnce(a: string, c: char, b: string)
    requires c !in a && c !in b
    ensures Split(a + [c] + b, c) == [a, b]
  {
    SplitAtFirstSeparator(a, c, b);
    SplitWithoutSeparator(b, c);
  }

  /** Splitting undoes joining, for components free of the separator. */
  lemma {:induction false} SplitJoin(parts: seq<string>, c: char)
    requires |parts| >= 1
    requires forall i | 0 <= i < |parts| :: c !in parts[i]
    ensures Split(Join(parts, c), c) == parts
    decreases |parts|
  {
    if |parts| == 1 {
      SplitWithoutSeparator(parts[0], c);
    } else {
      SplitJoin(parts[1..], c);
      SplitAtFirstSeparator(parts[0], c, Join(parts[1..], c));
      assert [parts[0]] + parts[1..] == parts;
    }
  }

  /** Joining a list extended by one component appends the separator and it. */
  lemma {:induction false} JoinSnoc(parts: seq<string>, c: char, x: string)
    requires |parts| >= 1
    ensures Join(parts + [x], c) == Join(parts, c) + [c] + x
    decreases |parts|
  {
    if |parts| == 1 {
      assert (parts + [x])[1..] == [x];
    } else {
      assert (parts + [x])[1..] == parts[1..] + [x];
      JoinSnoc(parts[1..], c, x);
    }
  }

}

=== FILE: uuid.dfy ===
/**
  `isValidUUID` of PreBuild/PreBuilder.swift (lines 507-550): the 8-4-4-4-12
  hexadecimal layout of section 3 of RFC 4122, without a version or variant
  check, measured in UTF-8 bytes.
 */
module Uuid {

  import opened Options
  import opened StringExtensions

  /** Bytes of `ch` in UTF-8. */
  function Utf8Width(ch: char): (r: nat)
    ensures 1 <= r <= 4
    ensures r == 1 <==> ch as int < 0x80
  {
    if ch as int < 0x80 then 1
    else if ch as int < 0x800 then 2
    else if ch as int < 0x1_0000 then 3
    else 4
  }

  /** `lengthOfBytesUsingEncoding(NSUTF8StringEncoding)`. */
  function Utf8Length(s: string): (r: nat)
    ensures r >= |s|
  {
    if s == [] then 0 else Utf8Width(s[0]) + Utf8Length(s[1..])
  }

  /** The byte length is the character count exactly for ASCII text. */
  lemma {:induction false} Utf8LengthAscii(s: string)
    ensures Utf8Length(s) == |s| <==> forall i | 0 <= i < |s| :: s[i] as int < 0x80
  {
    if s != [] {
      Utf8LengthAscii(s[1..]);
      assert forall i | 1 <= i < |s| :: s[i] == s[1..][i - 1];
    }
  }

  /** `stringByReplacingOccurrencesOfString(String(c), withString: "")`. */
  function RemoveAll(s: string, c: char): (r: string)
    ensures forall ch :: ch in r <==> ch in s && ch != c
  {
    if s == [] then []
    else if s[0] == c then RemoveAll(s[1..], c)
    else [s[0]] + RemoveAll(s[1..], c)
  }

  /** Removing every character of `chars` in turn, as the loop of lines 544-546 does. */
  function RemoveEach(s: string, chars: string): string
    decreases |chars|
  {
    if chars == [] then s else RemoveEach(RemoveAll(s, chars[0]), chars[1..])
  }

  /** What is left is what is not in `chars`; nothing is left exactly when `s` is made of `chars`. */
  lemma {:induction false} RemoveEachLeaves(s: string, chars: string)
    ensures forall ch :: ch in RemoveEach(s, chars) <==> ch in s && ch !in chars
    ensures RemoveEach(s, chars) == [] <==> forall ch | ch in s :: ch in chars
    decreases |chars|
  {
    if chars == [] {
      assert s != [] ==> s[0] in s;
    } else {
      assert forall ch | ch in chars && ch != chars[0] :: ch in chars[1..];
      RemoveEachLeaves(RemoveAll(s, chars[0]), chars[1..]);
    }
  }

  const ValidSet: string := "-0123456789abcdefABCDEF"

  /** `isValidUUID`: a missing string is not valid. */
  function IsValidUUID(uuid: Option<string>): (r: bool)
    ensures uuid.None? ==> !r
  {
    match uuid
    case None => false
    case Some(s) =>
      Accepts(s, ValidSet)
  }

  /** The checks of lines 514-548, with the set of characters to remove as a parameter. */
  predicate Accepts(s: string, chars: string)
  {
    Utf8Length(s) == 36 && GroupLengths(Split(s, '-')) && RemoveEach(s, chars) == []
  }

  /** Five groups of 8, 4, 4, 4 and 12 bytes (lines 518-540). */
  predicate GroupLengths(groups: seq<string>)
  {
    && |groups| == 5
    && Utf8Length(groups[0]) == 8
    && Utf8Length(groups[1]) == 4
    && Utf8Length(groups[2]) == 4
    && Utf8Length(groups[3]) == 4
    && Utf8Length(groups[4]) == 12
  }

  // ---------------------------------------------------------------------
  // The canonical shape, position by position
  // ---------------------------------------------------------------------

  predicate IsHex(ch: char)
  {
    '0' <= ch <= '9' || 'a' <= ch <= 'f' || 'A' <= ch <= 'F'
  }

  predicate IsHyphenPosition(i: int)
  {
    i == 8 || i == 13 || i == 18 || i == 23
  }

  /** 36 characters, '-' at positions 8, 13, 18 and 23, a hex digit everywhere else. */
  predicate CanonicalUUID(s: string)
  {
    && |s| == 36
    && forall i | 0 <= i < 36 :: if IsHyphenPosition(i) then s[i] == '-' else IsHex(s[i])
  }

  /** `chars` holds '-' and the hex digits, and nothing else. */
  predicate HyphenAndHex(chars: string)
  {
    forall ch :: ch in chars <==> ch == '-' || IsHex(ch)
  }

  lemma ValidSetIsHyphenAndHex()
    ensures HyphenAndHex(ValidSet)
  {
    forall ch ensures ch in ValidSet <==> ch == '-' || IsHex(ch) {
      ValidSetMembers(ch);
    }
  }

  lemma ValidSetMembers(ch: char)
    ensures ch in ValidSet <==> ch == '-' || IsHex(ch)
  {
    if IsHex(ch) || ch == '-' {
      var i := if ch == '-' then 0
               else if ch <= '9' then 1 + (ch as int - '0' as int)
               else if ch <= 'F' then 17 + (ch as int - 'A' as int)
               else 11 + (ch as int - 'a' as int);
      assert ValidSet[i] == ch;
    }
  }

  /** The string laid out as five groups joined by '-'. */
  function Layout(g0: string, g1: string, g2: string, g3: string, g4: string): string
  {
    g0 + ['-'] + (g1 + ['-'] + (g2 + ['-'] + (g3 + ['-'] + g4)))
  }

  lemma JoinFive(g0: string, g1: string, g2: string, g3: string, g4: string)
    ensures Join([g0, g1, g2, g3, g4], '-') == Layout(g0, g1, g2, g3, g4)
  {
    var gs := [g0, g1, g2, g3, g4];
    assert gs[1..] == [g1, g2, g3, g4];
    assert [g1, g2, g3, g4][1..] == [g2, g3, g4];
    assert [g2, g3, g4][1..] == [g3, g4];
    assert [g3, g4][1..] == [g4];
    assert Join([g3, g4], '-') == g3 + ['-'] + g4;
    assert Join([g2, g3, g4], '-') == g2 + ['-'] + (g3 + ['-'] + g4);
    assert Join([g1, g2, g3, g4], '-') == g1 + ['-'] + (g2 + ['-'] + (g3 + ['-'] + g4));
  }

  lemma SplitFive(g0: string, g1: string, g2: string, g3: string, g4: string)
    requires '-' !in g0 && '-' !in g1 && '-' !in g2 && '-' !in g3 && '-' !in g4
    ensures Split(Layout(g0, g1, g2, g3, g4), '-') == [g0, g1, g2, g3, g4]
  {
    var gs := [g0, g1, g2, g3, g4];
    JoinFive(g0, g1, g2, g3, g4);
    assert forall i | 0 <= i < 5 :: '-' !in gs[i];
    SplitJoin(gs, '-');
  }

  /** The five groups of a layout of the right lengths, hex digits exactly where the groups are. */
  lemma LayoutPositions(g0: string, g1: string, g2: string, g3: string, g4: string)
    requires |g0| == 8 && |g1| == 4 && |g2| == 4 && |g3| == 4 && |g4| == 12
    ensures var s := Layout(g0, g1, g2, g3, g4);
            && |s| == 36
            && s[..8] == g0 && s[9..13] == g1 && s[14..18] == g2 && s[19..23] == g3 && s[24..] == g4
            && s[8] == '-' && s[13] == '-' && s[18] == '-' && s[23] == '-'
  {
    var t3 := g3 + ['-'] + g4;
    var t2 := g2 + ['-'] + t3;
    var t1 := g1 + ['-'] + t2;
    var s := g0 + ['-'] + t1;
    assert s[..8] == g0 && s[9..] == t1;
    assert t1[..4] == g1 && t1[5..] == t2;
    assert t2[..4] == g2 && t2[5..] == t3;
    assert t3[..4] == g3 && t3[5..] == g4;
    assert s[9..13] == t1[..4] && s[14..18] == t2[..4] && s[19..23] == t3[..4] && s[24..] == t3[5..];
  }

  predicate AllHex(g: string)
  {
    forall i | 0 <= i < |g| :: IsHex(g[i])
  }

  /** Groups of hex digits of the right lengths make a canonical layout. */
  lemma GroupsCanonical(g0: string, g1: string, g2: string, g3: string, g4: string)
    requires |g0| == 8 && |g1| == 4 && |g2| == 4 && |g3| == 4 && |g4| == 12
    requires AllHex(g0) && AllHex(g1) && AllHex(g2) && AllHex(g3) && AllHex(g4)
    ensures CanonicalUUID(Layout(g0, g1, g2, g3, g4))
  {
    var s := Layout(g0, g1, g2, g3, g4);
    LayoutPositions(g0, g1, g2, g3, g4);
    forall i | 0 <= i < 36
      ensures if IsHyphenPosition(i) then s[i] == '-' else IsHex(s[i])
    {
      if !IsHyphenPosition(i) {
        if i < 8 { assert s[i] == s[..8][i]; }
        else if i < 13 { assert s[i] == s[9..13][i - 9]; }
        else if i < 18 { assert s[i] == s[14..18][i - 14]; }
        else if i < 23 { assert s[i] == s[19..23][i - 19]; }
        else { assert s[i] == s[24..][i - 24]; }
      }
    }
  }

  /** A group free of '-' whose characters are all in the valid set is all hex. */
  lemma GroupIsHex(g: string, chars: string)
    requires HyphenAndHex(chars)
    requires '-' !in g
    requires forall ch | ch in g :: ch in chars
    ensures AllHex(g)
  {
    forall i | 0 <= i < |g| ensures IsHex(g[i]) {
      assert g[i] in g;
    }
  }

  /** A canonical string is its five groups joined by '-'. */
  lemma CanonicalLayout(s: string)
    requires CanonicalUUID(s)
    ensures s == Layout(s[..8], s[9..13], s[14..18], s[19..23], s[24..])
  {
    var l := Layout(s[..8], s[9..13], s[14..18], s[19..23], s[24..]);
    LayoutPositions(s[..8], s[9..13], s[14..18], s[19..23], s[24..]);
    forall i | 0 <= i < 36 ensures l[i] == s[i] {
      if i < 8 { assert l[i] == l[..8][i]; }
      else if i == 8 || i == 13 || i == 18 || i == 23 { }
      else if i < 13 { assert l[i] == l[9..13][i - 9]; }
      else if i < 18 { assert l[i] == l[14..18][i - 14]; }
      else if i < 23 { assert l[i] == l[19..23][i - 19]; }
      else { assert l[i] == l[24..][i - 24]; }
    }
  }

  /** Whatever the validator accepts is canonical. */
  lemma ValidIsCanonical(s: string, chars: string)
    requires HyphenAndHex(chars)
    requires Accepts(s, chars)
    ensures CanonicalUUID(s)
  {
    var gs := Split(s, '-');
    RemoveEachLeaves(s, chars);
    assert forall ch | ch in s :: ch in chars;
    Utf8LengthAscii(s);
    assert forall i | 0 <= i < |s| :: s[i] as int < 0x80 by {
      forall i | 0 <= i < |s| ensures s[i] as int < 0x80 {
        assert s[i] in s;
      }
    }
    FiveElements(gs);
    JoinFive(gs[0], gs[1], gs[2], gs[3], gs[4]);
    assert s == Layout(gs[0], gs[1], gs[2], gs[3], gs[4]);
    GroupOfValid(s, chars, gs, 0);
    GroupOfValid(s, chars, gs, 1);
    GroupOfValid(s, chars, gs, 2);
    GroupOfValid(s, chars, gs, 3);
    GroupOfValid(s, chars, gs, 4);
    GroupsCanonical(gs[0], gs[1], gs[2], gs[3], gs[4]);
  }

  /** A group of an accepted string is one byte per character and all hex. */
  lemma GroupOfValid(s: string, chars: string, gs: seq<string>, k: nat)
    requires HyphenAndHex(chars)
    requires forall i | 0 <= i < |s| :: s[i] as int < 0x80
    requires forall ch | ch in s :: ch in chars
    requires gs == Split(s, '-') && k < |gs|
    ensures Utf8Length(gs[k]) == |gs[k]| && AllHex(gs[k])
  {
    forall ch | ch in gs[k] ensures ch in s {
      var j :| 0 <= j < |gs[k]| && gs[k][j] == ch;
      JoinedGroupChar(gs, k, j);
    }
    AsciiGroup(s, gs[k]);
    GroupIsHex(gs[k], chars);
  }

  lemma JoinedGroupChar(gs: seq<string>, k: nat, j: nat)
    requires k < |gs| && j < |gs[k]|
    ensures gs[k][j] in Join(gs, '-')
    decreases |gs|
  {
    if |gs| > 1 {
      if k == 0 {
        assert Join(gs, '-')[j] == gs[0][j];
      } else {
        JoinedGroupChar(gs[1..], k - 1, j);
      }
    }
  }

  lemma FiveElements(gs: seq<string>)
    requires |gs| == 5
    ensures gs == [gs[0], gs[1], gs[2], gs[3], gs[4]]
  {
  }

  /** Whatever is canonical the validator accepts. */
  lemma CanonicalIsValid(s: string, chars: string)
    requires HyphenAndHex(chars)
    requires CanonicalUUID(s)
    ensures Accepts(s, chars)
  {
    var g0, g1, g2, g3, g4 := s[0..8], s[9..13], s[14..18], s[19..23], s[24..36];
    CanonicalLayout(s);
    assert s[..8] == g0 && s[24..] == g4;
    forall ch | ch in s ensures ch in chars {
      var i :| 0 <= i < |s| && s[i] == ch;
    }
    HexGroup(s, 0, 8);
    HexGroup(s, 9, 13);
    HexGroup(s, 14, 18);
    HexGroup(s, 19, 23);
    HexGroup(s, 24, 36);
    SplitFive(g0, g1, g2, g3, g4);
    assert Split(s, '-') == [g0, g1, g2, g3, g4];
    assert GroupLengths([g0, g1, g2, g3, g4]);
    assert Utf8Length(s) == 36 by {
      forall i | 0 <= i < |s| ensures s[i] as int < 0x80 {
        assert IsHyphenPosition(i) || IsHex(s[i]);
      }
      Utf8LengthAscii(s);
    }
    RemoveEachLeaves(s, chars);
  }

  /** The validator accepts exactly the canonical layout. */
  lemma IsValidUUIDIsCanonical(s: string)
    ensures IsValidUUID(Some(s)) <==> CanonicalUUID(s)
  {
    ValidSetIsHyphenAndHex();
    if IsValidUUID(Some(s)) { ValidIsCanonical(s, ValidSet); }
    if CanonicalUUID(s) { CanonicalIsValid(s, ValidSet); }
  }

  /** A group of a string of one-byte characters is one byte per character. */
  lemma AsciiGroup(s: string, g: string)
    requires forall i | 0 <= i < |s| :: s[i] as int < 0x80
    requires forall ch | ch in g :: ch in s
    ensures Utf8Length(g) == |g|
  {
    forall i | 0 <= i < |g| ensures g[i] as int < 0x80 {
      assert g[i] in s;
    }
    Utf8LengthAscii(g);
  }

  /** A run of hex positions has no '-' and is one byte per character. */
  lemma HexGroup(s: string, a: nat, b: nat)
    requires CanonicalUUID(s)
    requires a <= b <= 36
    requires forall i | a <= i < b :: !IsHyphenPosition(i)
    ensures '-' !in s[a..b]
    ensures Utf8Length(s[a..b]) == b - a
  {
    forall i | 0 <= i < b - a ensures s[a..b][i] != '-' && s[a..b][i] as int < 0x80 {
      assert s[a..b][i] == s[a + i] && IsHex(s[a + i]);
    }
    Utf8LengthAscii(s[a..b]);
  }

  /** An identifier of the right shape is accepted. */
  lemma ValidExample()
    ensures IsValidUUID(Some("550e8400-e29b-41d4-a716-446655440000"))
  {
    ExampleGroups();
    ExampleLayout();
    GroupsCanonical("550e8400", "e29b", "41d4", "a716", "446655440000");
    IsValidUUIDIsCanonical(Layout("550e8400", "e29b", "41d4", "a716", "446655440000"));
  }

  /** The groups of the example are hex digits. */
  lemma ExampleGroups()
    ensures AllHex("550e8400") && AllHex("e29b") && AllHex("41d4") && AllHex("a716") && AllHex("446655440000")
  {
    assert AllHex("550e8400");
    assert AllHex("e29b");
    assert AllHex("41d4");
    assert AllHex("a716");
  }

  /** The groups of the example laid out are the example. */
  lemma ExampleLayout()
    ensures Layout("550e8400", "e29b", "41d4", "a716", "446655440000") == "550e8400-e29b-41d4-a716-446655440000"
  {
  }

  /** Four groups are too short. */
  lemma TooShortExample()
    ensures !IsValidUUID(Some("550e8400-e29b-41d4-a716"))
  {
    IsValidUUIDIsCanonical("550e8400-e29b-41d4-a716");
  }

  /** '_' does not separate groups. */
  lemma WrongDelimiterExample()
    ensures !IsValidUUID(Some("550e8400_e29b_41d4_a716_446655440000"))
  {
    var s := "550e8400_e29b_41d4_a716_446655440000";
    assert s[8] == '_';
    IsValidUUIDIsCanonical(s);
  }

}

=== FILE: values.dfy ===
/**
  The configuration tree: what NSJSONSerialization produces and the
  Foundation collections (NSDictionary, NSArray, NSString, NSNumber, NSNull)
  the tool passes around. A dictionary maps string keys to values; lookup is by
  key, never by position.
 */
module Values {

  datatype Value =
    | Null
    | Bool(b: bool)
    | Int(n: int)
    | Str(s: string)
    | Array(items: seq<Value>)
    | Dict(entries: map<string, Value>)

  type Dictionary = map<string, Value>

  /** The Swift cast `as? [String:[String:AnyObject]]`: every value is a dictionary. */
  predicate AllDicts(m: Dictionary)
  {
    forall k | k in m :: m[k].Dict?
  }

  /** No dictionary key anywhere inside `v` contains the index marker ':'. */
  predicate NoColonKeys(v: Value)
  {
    match v
    case Dict(m) => forall k | k in m :: ':' !in k && NoColonKeys(m[k])
    case Array(a) => forall i | 0 <= i < |a| :: NoColonKeys(a[i])
    case _ => true
  }

}
